=== FILE: README.md ===
# Freeze-tag game logic in Dafny

A model of the discrete rules of the Freeze-Tag Unity simulation: runners flee
taggers in an arena; a tagger that touches a runner freezes it; a runner can
throw a snowball that freezes a tagger; the environment controller ends an
episode when every runner is frozen or the step budget runs out, and hands out
individual and group rewards for each event.

The model keeps the state the scripts hold as plain data and each script
method as a pure function:

- `Movement` — the per-body flag machine: the frozen flag, the kinematic flag
  and the GameObject tag that Freeze and Unfreeze rewrite, the latched jump
  request, the ground flag and contact normal, the buffered planar velocity.
- `SnowballTrigger` — the shot countdown, its reset and the shot gate.
- `TagAgent` — one agent (role, body, trigger, initial-freeze flag,
  accumulated reward, position), episode begin, action routing by role, the
  discrete observations and the wall penalty.
- `Spawn` — the 15-point spawn pool and sampling without replacement.
- `EnvController` — the scene: both rosters, both group rewards, the reset
  timer, the reward distributions, ResetScene, Interrupt, the physics tick and
  Awake.
- `AgentCollisions` — the tag and thaw rules of TagAgent.OnCollisionEnter.
- `Snowball` — the snowball's collision rule.
- `Episode` — runs interleaving ticks, interrupts, agents' episode begins and
  collisions, and the tag invariant that follows.

Tags are kept as the literal strings the scripts compare and write.
`Freeze` writes "Frozen", the thaw rule tests "FrozenRunner", and `Unfreeze`
writes "Runner" for every role. Because no code writes "FrozenRunner", the
model proves that the thaw branch never fires in any run that starts from
Awake (`Episode.ThawNeverFires`). This holds as long as every body that
Movement.Reset leaves at an episode begin carries one of the tags the scripts
write; Movement.Reset is not part of this model. `Episode.ResetTagAssumptionNeeded`
shows that the assumption is needed.

The code differs from what its names suggest in these ways:
- There are no grace or cooldown periods on tagging. Nothing checks CanFreeze
  before a tag.
- A tagged runner is tagged "Frozen", so the thaw rule's "FrozenRunner" test
  never matches.
- Unfreeze gives a thawed tagger the runner tag.
- Ground detection accepts any contact whose normal is steep enough,
  including another agent's surface.
- A snowball reports a miss on every collision, hits included.

Random draws are inputs: `Spawn.DrawsFit` gives the range of each spawn-index
draw and `ResetDraws` carries the Bernoulli draw for the initial freeze.
Rewards are `real`.

## Model

| member | source | states |
|---|---|---|
| Movement.Spawned | Assets/Scripts/Movement.cs:27-34 | A new body is unfrozen, with no pending jump, carrying the prefab's tag. |
| Movement.Freeze | Assets/Scripts/Movement.cs:71-86 | The result is always frozen. An already frozen body is returned unchanged. Otherwise the body becomes kinematic and is tagged "Frozen". The motion state is untouched. |
| Movement.Unfreeze | Assets/Scripts/Movement.cs:88-100 | The result is never frozen. An unfrozen body is returned unchanged. Otherwise the body becomes non-kinematic and is tagged "Runner", whatever its role. The motion state is untouched. |
| Movement.FreezeIdempotent | Assets/Scripts/Movement.cs:73-74 | Freezing twice is the same as freezing once. |
| Movement.UnfreezeIdempotent | Assets/Scripts/Movement.cs:90-91 | Unfreezing twice is the same as unfreezing once. |
| Movement.FreezeThenUnfreeze | Assets/Scripts/Movement.cs:71-100 | For an unfrozen, non-kinematic runner, Unfreeze undoes Freeze exactly. |
| Movement.UnfreezeRetagsTagger | Assets/Scripts/Movement.cs:85-99 | A tagger that is frozen and then unfrozen ends up tagged "Runner", not "Tagger". |
| Movement.FlipsKeepWrittenTags | Assets/Scripts/Movement.cs:85-99 | Freeze and Unfreeze never produce a tag outside {"Runner", "Tagger", "Frozen"}, and never produce "FrozenRunner". |
| Movement.Move | Assets/Scripts/Movement.cs:36-46 | The desired velocity is the (clamped) input times maxSpeed, with no vertical part. The jump request is OR-latched, and frozen, tag and ground state are kept. |
| Movement.FixedUpdate | Assets/Scripts/Movement.cs:48-69 | A frozen body is untouched and gets no impulse. Otherwise the jump latch and the ground flag are cleared, and an airborne body's contact normal falls back to Up. The tag, flags, desired velocity and rotation direction are kept. An impulse happens iff the body is unfrozen, a jump is latched and it is on ground, which is Jump's guard. |
| Movement.EvaluateCollision | Assets/Scripts/Movement.cs:139-150 | The body ends on ground iff it was on ground or some contact normal is steep enough. The last such normal becomes the contact normal. Without one the body is unchanged, and no other field ever changes. |
| Movement.FrozenKeepsJumpLatch | Assets/Scripts/Movement.cs:43-51 | A frozen body stays frozen under any input sequence. Its jump latch ends set iff it was set or some input asked for a jump. |
| Movement.LatchHeldUntilTick | Assets/Scripts/Movement.cs:43-61 | Without a tick in between, the jump latch is the OR of all requests, and a later jump of 0 never clears it. |
| SnowballTrigger.Start | Assets/Scripts/SnowballTrigger.cs:16-20 | The countdown starts at 0, so the first shot is available at once. |
| SnowballTrigger.FixedUpdate | Assets/Scripts/SnowballTrigger.cs:22-25 | The countdown drops by one and saturates at 0. |
| SnowballTrigger.Reset | Assets/Scripts/SnowballTrigger.cs:27-30 | The countdown is cleared and the cooldown is kept. |
| SnowballTrigger.ShootSnowball | Assets/Scripts/SnowballTrigger.cs:32-40 | A snowball spawns iff the countdown is 0 and the owner is not frozen. A shot re-arms the countdown to the cooldown, and otherwise nothing changes. |
| SnowballTrigger.TicksCountDown | Assets/Scripts/SnowballTrigger.cs:22-25 | k ticks leave max(0, t - k) on a non-negative countdown t. |
| SnowballTrigger.ShotBlockedDuringCooldown | Assets/Scripts/SnowballTrigger.cs:22-40 | After a shot, every attempt within fewer than cooldownTime ticks spawns nothing and changes nothing. |
| SnowballTrigger.ShotReadyAfterCooldown | Assets/Scripts/SnowballTrigger.cs:22-40 | After a shot, once cooldownTime ticks have passed, an unfrozen owner can shoot again. |
| SnowballTrigger.InRangePreserved | Assets/Scripts/SnowballTrigger.cs:22-40 | The countdown stays within [0, cooldownTime] under tick, reset and shot. |
| TagAgent.Instantiate | Assets/Scripts/EnvController.cs:74-78 | A new agent has its prefab tag, is unfrozen, has reward 0, has a ready trigger, and has the given position and initial-freeze flag. |
| TagAgent.AddReward | Assets/Scripts/EnvController.cs:137-140 | Only the reward changes, and it grows by the amount. |
| TagAgent.OnEpisodeBegin | Assets/Scripts/TagAgent.cs:73-82 | The initial-freeze flag is always consumed. A pending initial freeze leaves the body frozen. Runners' countdowns are cleared; taggers' are kept. |
| TagAgent.InitialFreezeOnce | Assets/Scripts/TagAgent.cs:73-82 | The initial freeze is applied at most once: the next episode begins with the reset body unchanged. An unfrozen body frozen by it is tagged "Frozen". |
| TagAgent.OnActionReceived | Assets/Scripts/TagAgent.cs:42-59 | The movement axes and jump are passed on unchanged. Runners move with dash 0; taggers pass the special branch as dash and never shoot. A snowball spawns iff the agent is a runner, special is 1, its countdown is 0 and it is unfrozen. A shot re-arms the countdown to cooldownTime; otherwise the agent is unchanged. |
| TagAgent.CollectObservations | Assets/Scripts/TagAgent.cs:27-40 | The frozen and ground flags are reported. Jump availability is on-ground with jumpTimer 0. Special availability is dashTimer 0 for taggers and countdown 0 for runners. |
| TagAgent.SpecialObservationPredictsShot | Assets/Scripts/TagAgent.cs:33-36 | For an unfrozen runner, "special available" holds iff pressing special spawns a snowball. |
| TagAgent.OnCollisionStay | Assets/Scripts/TagAgent.cs:108-114 | A "Wall" contact costs exactly 0.0001 reward, and nothing else changes. Other contacts change nothing. |
| TagAgent.WallPenaltyAccumulates | Assets/Scripts/TagAgent.cs:108-114 | n wall callbacks cost exactly n times the penalty, and nothing else changes. |
| Spawn.Pool | Assets/Scripts/EnvController.cs:55-59 | The pool holds exactly 15 points. |
| Spawn.PoolInjective | Assets/Scripts/EnvController.cs:55-59 | With non-zero ground scale, the 15 spawn points are pairwise distinct. |
| Spawn.SampleIndices | Assets/Scripts/EnvController.cs:252-265 | Sampling succeeds iff count is at most the number of available points. The picks are distinct members of the available list, count of them. |
| Spawn.SampleSpawnPoints | Assets/Scripts/EnvController.cs:252-265 | It succeeds iff count <= 15; asking for more fails the way indexing an empty list does. The result has count points, each in the pool, pairwise distinct when the scale is non-zero. |
| EnvController.DistributeTagRewards | Assets/Scripts/EnvController.cs:135-143 | The tagger gets t_catch and the runner r_frozen. The groups get tg_catch and rg_freeze. No other agent and no body changes. The configuration, scale, timer and episode counters are kept. |
| EnvController.DistributeSnowballHitRewards | Assets/Scripts/EnvController.cs:145-152 | The tagger gets t_snowball and the runner r_snowball. The groups get tg_snowball and rg_snowball. Nothing else changes: no other agent, no body, and neither the configuration, scale, timer nor the episode counters. |
| EnvController.DistributeThawRewards | Assets/Scripts/EnvController.cs:154-158 | Only the helper is paid r_unfreeze, and only the runners' group gets rg_unfreeze_factor. The thawed runner and the taggers' group get nothing. No body changes, and the configuration, scale, timer and episode counters are kept. |
| EnvController.PayUnfrozen | Assets/Scripts/EnvController.cs:163-170 | Each unfrozen runner is paid once, and each frozen runner is left unchanged. |
| EnvController.PayAll | Assets/Scripts/EnvController.cs:176-179 | Every tagger is paid once, and only its reward changes. |
| EnvController.CountUnfrozen | Assets/Scripts/EnvController.cs:185-193 | numAlive is at most the number of runners. |
| EnvController.CountUnfrozenCountsFlags | Assets/Scripts/EnvController.cs:185-192 | numAlive equals the number of `false` entries in the runners' frozen flags. |
| EnvController.AllCaught | Assets/Scripts/EnvController.cs:109-117 | The early-exit scan reports true iff every runner is frozen. |
| EnvController.AllCaughtIffNoneAlive | Assets/Scripts/EnvController.cs:109-117 | All runners are caught iff numAlive is 0. |
| EnvController.PayUnfrozenTotal | Assets/Scripts/EnvController.cs:162-171 | The individual survival payments add up to numAlive times the amount. |
| EnvController.DistributeTimeoutRewards | Assets/Scripts/EnvController.cs:160-172 | Each unfrozen runner gets r_survival and frozen ones get nothing. The runners' group gets rg_win_base + rg_win_extra_factor * numAlive. Taggers are untouched. |
| EnvController.DistributeWinRewards | Assets/Scripts/EnvController.cs:174-181 | Every tagger gets t_win and the taggers' group gets tg_win. Runners are untouched. |
| EnvController.DistributeExistentialRewards | Assets/Scripts/EnvController.cs:183-201 | Each unfrozen runner gets r_existential / M and each tagger t_existential / M. The runners' group gets rg_existential * numAlive / M and the taggers' group tg_existential / M. Frozen runners are untouched. |
| EnvController.ResetScene | Assets/Scripts/EnvController.cs:211-235 | The timer restarts at 0. Every agent keeps its role, body, frozen flag, trigger and reward. Only runner 0 may be armed for an initial freeze, exactly when the draw is below the probability. Runner i is placed on the i-th sampled point and tagger i on the point after all runners' (sample order). All positions come from the pool and are pairwise distinct. |
| EnvController.Relocate | Assets/Scripts/EnvController.cs:213-232 | The timer restarts and runners then taggers stand on the given points in order. Every agent keeps its role, body, trigger and reward; only runner 0 may be armed, by the given flag. |
| EnvController.Interrupt | Assets/Scripts/EnvController.cs:203-209 | The scene is reset as ResetScene does it: the timer restarts, runners then taggers stand on the sampled points in order, runner 0 is armed iff the draw is below the probability, and the taggers' flags, the configuration and the scale are kept. Every agent keeps its role, body, trigger and reward. The interruption is counted. No reward is paid and no episode counts as ended. The agents' own episode begins are separate Episode.EpisodeBegin events. |
| EnvController.Tick | Assets/Scripts/EnvController.cs:95-133 | Exactly one branch runs: timeout iff the incremented timer exceeds MaxEnvironmentSteps; a win iff not and every runner is frozen; otherwise existential rewards. Timeout and win reset the timer and end the episode. The timer, an unbounded integer here, stays in [0, M]. Every agent keeps its role, body and trigger; a continued tick changes nothing but rewards, and after a reset only runner 0 may be armed. The agents' own episode begins are separate Episode.EpisodeBegin events. |
| EnvController.ContinuedPaysExistential | Assets/Scripts/EnvController.cs:128-131 | A tick that neither times out nor finds all runners caught gives each unfrozen runner r_existential / M and each tagger t_existential / M. Frozen runners get nothing. The runners' group gets rg_existential * numAlive / M and the taggers' group tg_existential / M. |
| EnvController.TimeoutPaysSurvivors | Assets/Scripts/EnvController.cs:97-102 | The survivors counted after ResetScene are exactly the runners unfrozen before the tick. Each of them gets r_survival, and the group bonus uses exactly that count. |
| EnvController.WinPaysTaggersOnce | Assets/Scripts/EnvController.cs:119-124 | A win pays every tagger and the taggers' group exactly once, and pays no runner. |
| EnvController.ExistentialAccumulates | Assets/Scripts/EnvController.cs:97-130 | Over n ticks that stay within the budget, an unfrozen runner accumulates n times r_existential / M. |
| EnvController.RepeatedPerStep | Assets/Scripts/EnvController.cs:191 | M shares of weight / M add up to the weight. |
| EnvController.ExistentialSumsToWeight | Assets/Scripts/EnvController.cs:97-130 | A runner that stays unfrozen through a full episode of M ticks collects exactly r_existential. The next tick times out. |
| EnvController.Awake | Assets/Scripts/EnvController.cs:52-92 | It succeeds iff the pool can hold every agent. Every runner is tagged "Runner" and every tagger "Tagger", all unfrozen, with the timer at 0. Only runner 0 may be armed for an initial freeze. Positions are distinct. |
| EnvController.DefaultAwakeSucceeds | Assets/Scripts/EnvController.cs:14-16 | With the serialized defaults, Awake succeeds with 5 runners and 2 taggers, and the step budget is non-zero. |
| EnvController.Roster | Assets/Scripts/EnvController.cs:70-89 | One agent per sampled point, in order, each with the role's prefab tag. Only the first can be armed for an initial freeze. |
| AgentCollisions.TagRunner | Assets/Scripts/TagAgent.cs:95-99 | The runner's body is frozen with no CanFreeze check and it gets r_frozen; nothing else about it changes. The tagger gets t_catch, and the groups get tg_catch and rg_freeze. Every other agent, the configuration, scale, timer and episode counters are unchanged. |
| AgentCollisions.ThawRunner | Assets/Scripts/TagAgent.cs:100-104 | The thawed runner is unfrozen and paid nothing. The helper gets r_unfreeze and the runners' group rg_unfreeze_factor. Every other agent, the configuration, scale, timer and episode counters are unchanged. |
| AgentCollisions.OnCollisionEnter | Assets/Scripts/TagAgent.cs:89-106 | A tag happens iff the other is tagged "Tagger" and self "Runner". A thaw happens iff the other is tagged "Runner", self "FrozenRunner" and CanUnfreeze holds. Otherwise, or with no agent touched, nothing changes. |
| AgentCollisions.ThawUnreachable | Assets/Scripts/TagAgent.cs:100 | When every tag is one the scripts write, the thaw branch cannot fire. |
| AgentCollisions.TaggedRunnerStaysFrozen | Assets/Scripts/TagAgent.cs:95-104 | A runner that was just tagged is tagged "Frozen". A teammate's touch, even with CanUnfreeze, leaves it frozen. |
| AgentCollisions.KeepsTagsWritten | Assets/Scripts/TagAgent.cs:89-106 | Agent collisions never introduce a tag the scripts do not write. |
| Snowball.HitTagger | Assets/Scripts/Snowball.cs:23-27 | The struck tagger is frozen and nothing else about it changes but its reward. It gets t_snowball and the owner r_snowball, and the groups get tg_snowball and rg_snowball. Every other agent, the configuration, scale, timer and episode counters are unchanged. |
| Snowball.OnCollisionEnter | Assets/Scripts/Snowball.cs:16-31 | A hit happens iff the struck object is an agent tagged "Tagger" and CanFreeze holds. A hit freezes it and pays the snowball-hit rewards. Every collision reports exactly one miss and destroys the snowball exactly once, last. Without a hit nothing changes. |
| Snowball.OnlyStruckTaggerFreezes | Assets/Scripts/Snowball.cs:19-27 | A snowball changes the frozen flag only of the struck, unfrozen, "Tagger"-tagged agent, and only when CanFreeze holds. |
| Snowball.KeepsTagsWritten | Assets/Scripts/Snowball.cs:16-31 | Snowball collisions never introduce a tag the scripts do not write. |
| Episode.AwakeWritesTags | Assets/Scripts/EnvController.cs:74-86 | Awake creates only "Runner"- and "Tagger"-tagged agents. |
| Episode.StepKeepsTagsWritten | Assets/Scripts/EnvController.cs:95-133 | Ticks, interrupts, both kinds of collision, and episode begins whose reset body carries a written tag all keep every tag one the scripts write. |
| Episode.RunKeepsTagsWritten | Assets/Scripts/EnvController.cs:95-209 | Any sequence of the modelled events keeps every tag one the scripts write. |
| Episode.ThawNeverFires | Assets/Scripts/TagAgent.cs:100-104 | After Awake and any sequence of ticks, interrupts, episode begins and collisions, no agent touch resolves as a thaw. |
| Episode.ResetTagAssumptionNeeded | Assets/Scripts/TagAgent.cs:75-104 | A reset body tagged "FrozenRunner" would let a teammate's touch thaw the runner. |
| Episode.SnowballedTaggerCannotTag | Assets/Scripts/Snowball.cs:25 | A tagger frozen by a snowball is tagged "Frozen" and can no longer tag a runner. |

## Left out

- Rigid-body physics is not modelled: velocity, AdjustVelocity, the jump impulse's magnitude, rotation, gravity and materials. They are continuous floating-point physics; only their discrete guards are modelled.
- Movement.Move: Vector2.ClampMagnitude is not modelled; the clamped input is a parameter.
- Float32 arithmetic is modelled as exact reals. Rounding of the reward weights and of r / MaxEnvironmentSteps is not modelled.
- The random number generator is not modelled. Spawn-index draws and the initial-freeze draw are inputs. The yaw draws and TransformPoint do not affect the discrete state and are left out.
- HideObstacles and obstacleProbability are not modelled; obstacle visibility does not touch agent state.
- The jump impulse's magnitude in Jump() is not modelled; Jump's on-ground guard is part of Movement.FixedUpdate's impulse condition.
- Movement.CanFreeze and Movement.CanUnfreeze are not part of this model; the rules take them as boolean parameters.
- Movement.Reset is not part of this model; OnEpisodeBegin takes the body it leaves as a parameter.
- Episode.ThawNeverFires assumes that every body Movement.Reset leaves carries the tag "Runner", "Tagger" or "Frozen". Movement.Reset is not shown, so the model cannot establish this.
- jumpTimer and dashTimer are not part of this model; CollectObservations takes their values as parameters.
- The five-argument Movement.Move is not part of this model; OnActionReceived records the call as a MoveRequest.
- EnvController.DistributeSnowballMissRewards is not part of this model; a snowball collision records its call as an effect.
- The continuous observations (velocity, relative position, yaw) are left out.
- The ML-Agents group API is not modelled. AddGroupReward is a group reward sum; EndGroupEpisode and GroupEpisodeInterrupted are episode counters. Their flushing of rewards into training is not modelled.
- The Heuristic, CameraManager and DebugMovementInput are left out. They are input and camera plumbing.
- EnvController.DistributeExistentialRewards requires MaxEnvironmentSteps != 0. The source would divide by zero there, but the tick never reaches that branch with a non-positive budget.
- Config.numRunners and Config.numTaggers are `nat`, so negative serialized counts are not modelled. A negative runner count alone makes the runner loops empty. With taggers it makes the tagger loops index sampledSpawnPoints at a negative position, which throws.
- Snowball.OnCollisionEnter: a struck object tagged "Tagger" that has a Movement body but no TagAgent is not modelled; the source throws a null reference there.
- EnvController.ExistentialSumsToWeight covers a run of ticks only, without interleaved collisions.
- EnvController.Tick: resetTimer is an unbounded integer, not a C# int32. The source's `resetTimer += 1` wraps to int.MinValue at int.MaxValue, so with MaxEnvironmentSteps == int.MaxValue the source never times out; the model times out there instead.
- SnowballTrigger.FixedUpdate: lastShotTime is an unbounded integer. The wrap of `lastShotTime - 1` at int.MinValue, reachable only with a cooldownTime of int.MinValue, is not modelled.
- EnvController.Tick and EnvController.Interrupt: EndGroupEpisode and GroupEpisodeInterrupted call every agent's OnEpisodeBegin synchronously, inside the same FixedUpdate or Interrupt call (EnvController.cs:104-105, 125-126, 207-208). The model represents those calls as separate Episode.EpisodeBegin events, so the "keeps its body" facts of Tick and Interrupt hold before those events.
- EnvController.Awake and Episode.ThawNeverFires assume that the Prefabs/Runner and Prefabs/Tagger assets are tagged "Runner" and "Tagger" (Common.PrefabTag). The prefab assets are not part of this model.
- Movement.FixedUpdate is not scheduled by EnvController.Tick. Each script's FixedUpdate is modelled on its own, and Unity's call order between them is not modelled.

=== FILE: agent_collisions.dfy ===
/**
  TagAgent.OnCollisionEnter: the tag and thaw rules between two agents,
  dispatched on the literal tag strings of the two GameObjects.
 */
module AgentCollisions {
  import opened Common
  import Movement
  import opened EnvController

  datatype Outcome = Tagged | Thawed | Ignored

  datatype Contact = Contact(env: Env, outcome: Outcome)

  /** The tag branch: the runner is frozen (no CanFreeze check) and the catch rewards are paid. */
  function TagRunner(env: Env, runner: AgentRef, tagger: AgentRef): (r: Env)
    requires ValidRef(env, runner) && ValidRef(env, tagger) && runner != tagger
    ensures SameShape(env, r)
    ensures Get(r, runner) == Get(env, runner).(body := Movement.Freeze(Get(env, runner).body),
                                                 reward := Get(env, runner).reward + env.cfg.w.r_frozen)
    ensures Get(r, tagger) == Get(env, tagger).(reward := Get(env, tagger).reward + env.cfg.w.t_catch)
    ensures forall p :: ValidRef(env, p) && p != runner && p != tagger ==> Get(r, p) == Get(env, p)
    ensures r.taggerGroup == env.taggerGroup + env.cfg.w.tg_catch
    ensures r.runnerGroup == env.runnerGroup + env.cfg.w.rg_freeze
    ensures SameScene(env, r)
  {
    var frozen := SetBody(env, runner, Movement.Freeze(Get(env, runner).body));
    var r := DistributeTagRewards(frozen, tagger, runner);
    assert OnlyRewards(frozen, r);
    assert Get(r, tagger) == Get(frozen, tagger).(reward := Get(r, tagger).reward);
    assert Get(r, runner) == Get(frozen, runner).(reward := Get(r, runner).reward);
    r
  }

  /** The thaw branch: the frozen runner is unfrozen and only its helper is paid. */
  function ThawRunner(env: Env, thawed: AgentRef, helper: AgentRef): (r: Env)
    requires ValidRef(env, thawed) && ValidRef(env, helper) && thawed != helper
    ensures SameShape(env, r)
    ensures Get(r, thawed) == Get(env, thawed).(body := Movement.Unfreeze(Get(env, thawed).body))
    ensures Get(r, helper) == Get(env, helper).(reward := Get(env, helper).reward + env.cfg.w.r_unfreeze)
    ensures forall p :: ValidRef(env, p) && p != thawed && p != helper ==> Get(r, p) == Get(env, p)
    ensures r.taggerGroup == env.taggerGroup
    ensures r.runnerGroup == env.runnerGroup + env.cfg.w.rg_unfreeze_factor
    ensures SameScene(env, r)
  {
    var unfrozen := SetBody(env, thawed, Movement.Unfreeze(Get(env, thawed).body));
    var r := DistributeThawRewards(unfrozen, thawed, helper);
    assert Get(r, helper) == Get(unfrozen, helper).(reward := Get(r, helper).reward);
    r
  }

  /**
    OnCollisionEnter seen from agent `self`; `other` is the TagAgent of the
    touched object, or None when it has none. CanUnfreeze is not part of this
    model and is the parameter `canUnfreeze`.
   */
  function OnCollisionEnter(env: Env, self: AgentRef, other: Option<AgentRef>, canUnfreeze: bool): (c: Contact)
    requires ValidRef(env, self)
    requires other.Some? ==> ValidRef(env, other.value)
    ensures SameShape(env, c.env)
    ensures c.outcome == Tagged <==>
      other.Some? && Get(env, other.value).body.tag == TaggerTag && Get(env, self).body.tag == RunnerTag
    ensures c.outcome == Thawed <==>
      && other.Some? && Get(env, other.value).body.tag == RunnerTag
      && Get(env, self).body.tag == FrozenRunnerTag && canUnfreeze
    ensures c.outcome == Ignored ==> c.env == env
    ensures c.outcome == Tagged ==> c.env == TagRunner(env, self, other.value)
    ensures c.outcome == Thawed ==> c.env == ThawRunner(env, self, other.value)
  {
    match other
    case None => Contact(env, Ignored)
    case Some(o) =>
      var selfTag := Get(env, self).body.tag;
      var otherTag := Get(env, o).body.tag;
      if otherTag == TaggerTag && selfTag == RunnerTag then
        Contact(TagRunner(env, self, o), Tagged)
      else if otherTag == RunnerTag && selfTag == FrozenRunnerTag && canUnfreeze then
        Contact(ThawRunner(env, self, o), Thawed)
      else
        Contact(env, Ignored)
  }

  /** The thaw branch needs the tag "FrozenRunner", which no code of the model writes: it never fires. */
  lemma ThawUnreachable(env: Env, self: AgentRef, other: Option<AgentRef>, canUnfreeze: bool)
    requires ValidRef(env, self)
    requires other.Some? ==> ValidRef(env, other.value)
    requires TagsWritten(env)
    ensures OnCollisionEnter(env, self, other, canUnfreeze).outcome != Thawed
  {
    TagsWrittenGet(env, self);
  }

  /**
    A runner that was just tagged is not thawed by a teammate's touch, even
    when CanUnfreeze holds: Freeze wrote "Frozen", the thaw rule asks for
    "FrozenRunner".
   */
  lemma TaggedRunnerStaysFrozen(env: Env, runner: AgentRef, tagger: AgentRef, helper: AgentRef)
    requires ValidRef(env, runner) && ValidRef(env, tagger) && ValidRef(env, helper)
    requires Get(env, runner).body.tag == RunnerTag && !Get(env, runner).body.frozen
    requires Get(env, tagger).body.tag == TaggerTag
    requires helper != runner && helper != tagger && Get(env, helper).body.tag == RunnerTag
    ensures var tagged := OnCollisionEnter(env, runner, Some(tagger), true);
      && tagged.outcome == Tagged
      && Get(tagged.env, runner).body.frozen
      && Get(tagged.env, runner).body.tag == FrozenTag
      && var touched := OnCollisionEnter(tagged.env, runner, Some(helper), true);
         touched.outcome == Ignored && Get(touched.env, runner).body.frozen
  {
  }

  /** Agent collisions keep every agent's tag one the scripts write. */
  lemma KeepsTagsWritten(env: Env, self: AgentRef, other: Option<AgentRef>, canUnfreeze: bool)
    requires ValidRef(env, self)
    requires other.Some? ==> ValidRef(env, other.value)
    requires TagsWritten(env)
    ensures TagsWritten(OnCollisionEnter(env, self, other, canUnfreeze).env)
  {
    ThawUnreachable(env, self, other, canUnfreeze);
    var c := OnCollisionEnter(env, self, other, canUnfreeze);
    if c.outcome == Tagged {
      var o := other.value;
      var b := Movement.Freeze(Get(env, self).body);
      TagsWrittenGet(env, self);
      Movement.FlipsKeepWrittenTags(Get(env, self).body);
      var frozen := SetBody(env, self, b);
      TagsWrittenUnderSetBody(env, self, b);
      TagsWrittenUnderRewards(frozen, DistributeTagRewards(frozen, o, self));
    }
  }
}

=== FILE: common.dfy ===
/**
  Shared vocabulary of the freeze-tag simulation: 3-vectors over exact reals,
  the two agent roles, the Unity tag strings the scripts compare and write,
  and the Option/Result wrappers used for absent objects and failures.
 */
module Common {

  /** A Unity Vector3, with exact real components instead of 32-bit floats. */
  datatype Vec3 = Vec3(x: real, y: real, z: real)

  const ZeroVec: Vec3 := Vec3(0.0, 0.0, 0.0)
  const Up: Vec3 := Vec3(0.0, 1.0, 0.0)

  datatype Role = Runner | Tagger

  /* The GameObject tag strings, spelled exactly as the scripts spell them. */
  const RunnerTag: string := "Runner"
  const TaggerTag: string := "Tagger"
  const FrozenTag: string := "Frozen"
  const FrozenRunnerTag: string := "FrozenRunner"
  const WallTag: string := "Wall"

  /** The tag an agent prefab carries when it is instantiated. */
  function PrefabTag(role: Role): string
  {
    match role
    case Runner => RunnerTag
    case Tagger => TaggerTag
  }

  /** The tags the model's own code ever writes onto an agent. */
  predicate WrittenTag(tag: string)
  {
    tag == RunnerTag || tag == TaggerTag || tag == FrozenTag
  }

  datatype Option<+T> = None | Some(value: T)

  /** A configuration error: more spawn points requested than the pool holds. */
  datatype Error = SpawnIndexOutOfRange

  datatype Result<+T> = Ok(value: T) | Failure(error: Error)

  /** No two positions of `s` hold equal values. */
  predicate Distinct<T(==)>(s: seq<T>)
  {
    forall i, j :: 0 <= i < j < |s| ==> s[i] != s[j]
  }
}

=== FILE: env_controller.dfy ===
/**
  The EnvController script: the roster of runners and taggers, the two
  group-reward accumulators, the per-tick state machine (timeout, all
  runners caught, or existential rewards), the reward distribution
  functions, scene reset and interrupt.

  ML-Agents' AddReward/AddGroupReward become real accumulators, and
  EndGroupEpisode/GroupEpisodeInterrupted become counters of the signals
  sent. Random draws are inputs.
 */
module EnvController {
  import opened Common
  import Movement
  import opened TagAgent
  import Spawn

  /** The serialized reward weights, under the field names the script uses. */
  datatype Weights = Weights(
    r_survival: real, r_frozen: real, r_unfreeze: real, r_existential: real, r_snowball: real,
    rg_snowball: real, rg_freeze: real, rg_unfreeze_factor: real, rg_win_base: real,
    rg_win_extra_factor: real, rg_existential: real,
    t_catch: real, t_win: real, t_existential: real, t_snowball: real,
    tg_catch: real, tg_win: real, tg_existential: real, tg_snowball: real)

  const DefaultWeights: Weights := Weights(
    1.0, -0.25, 0.15, 0.5, 0.125,
    0.1, -0.2, 0.25, 1.0,
    0.2, 0.1,
    0.1, 1.0, -0.5, -0.1,
    0.1, 1.0, -0.5, -0.1)

  datatype Config = Config(
    maxEnvironmentSteps: int,
    numRunners: nat,
    numTaggers: nat,
    initiallyFrozenProbability: real,
    cooldownTime: int,
    w: Weights)

  const DefaultConfig: Config := Config(5000, 5, 2, 0.2, 500, DefaultWeights)

  datatype Env = Env(
    cfg: Config,
    scale: real,
    runners: seq<Agent>,
    taggers: seq<Agent>,
    runnerGroup: real,
    taggerGroup: real,
    resetTimer: int,
    episodesEnded: nat,
    episodesInterrupted: nat)

  /** The roster matches the configuration, which fits the spawn pool, and the timer is non-negative. */
  predicate Valid(env: Env)
  {
    && |env.runners| == env.cfg.numRunners
    && |env.taggers| == env.cfg.numTaggers
    && env.cfg.numRunners + env.cfg.numTaggers <= Spawn.PoolSize
    && env.resetTimer >= 0
  }

  /** The random draws ResetScene consumes. */
  datatype ResetDraws = ResetDraws(spawn: seq<int>, initiallyFrozen: real)

  predicate DrawsFor(cfg: Config, d: ResetDraws)
  {
    Spawn.DrawsFit(d.spawn, Spawn.PoolSize, cfg.numRunners + cfg.numTaggers)
  }

  /** A reference to an agent of the roster: its team list and its position in it. */
  datatype AgentRef = AgentRef(team: Role, index: nat)

  predicate ValidRef(env: Env, q: AgentRef)
  {
    match q.team
    case Runner => q.index < |env.runners|
    case Tagger => q.index < |env.taggers|
  }

  function Get(env: Env, q: AgentRef): Agent
    requires ValidRef(env, q)
  {
    match q.team
    case Runner => env.runners[q.index]
    case Tagger => env.taggers[q.index]
  }

  function Put(env: Env, q: AgentRef, a: Agent): (r: Env)
    requires ValidRef(env, q)
    ensures SameShape(env, r)
    ensures Get(r, q) == a
    ensures forall p :: ValidRef(env, p) && p != q ==> Get(r, p) == Get(env, p)
    ensures SameFrame(env, r)
  {
    match q.team
    case Runner => env.(runners := env.runners[q.index := a])
    case Tagger => env.(taggers := env.taggers[q.index := a])
  }

  predicate SameShape(e: Env, e': Env)
  {
    |e'.runners| == |e.runners| && |e'.taggers| == |e.taggers|
  }

  /** Everything but the roster is the same. */
  predicate SameFrame(e: Env, e': Env)
  {
    && e'.cfg == e.cfg && e'.scale == e.scale
    && e'.runnerGroup == e.runnerGroup && e'.taggerGroup == e.taggerGroup
    && e'.resetTimer == e.resetTimer
    && e'.episodesEnded == e.episodesEnded && e'.episodesInterrupted == e.episodesInterrupted
  }

  /** The scene outside the rosters and the group rewards is the same: configuration, scale, timer, episode counters. */
  predicate SameScene(e: Env, e': Env)
  {
    && e'.cfg == e.cfg && e'.scale == e.scale && e'.resetTimer == e.resetTimer
    && e'.episodesEnded == e.episodesEnded && e'.episodesInterrupted == e.episodesInterrupted
  }

  /** The rosters have the same shape and each agent differs at most in its reward. */
  predicate OnlyRewards(e: Env, e': Env)
  {
    && SameShape(e, e')
    && (forall i :: 0 <= i < |e.runners| ==> e'.runners[i] == e.runners[i].(reward := e'.runners[i].reward))
    && (forall i :: 0 <= i < |e.taggers| ==> e'.taggers[i] == e.taggers[i].(reward := e'.taggers[i].reward))
  }

  /** Replaces the Movement body of one agent of the roster. */
  function SetBody(env: Env, q: AgentRef, b: Movement.Body): (r: Env)
    requires ValidRef(env, q)
    ensures SameShape(env, r)
    ensures Get(r, q) == Get(env, q).(body := b)
    ensures forall p :: ValidRef(env, p) && p != q ==> Get(r, p) == Get(env, p)
    ensures SameFrame(env, r)
  {
    Put(env, q, Get(env, q).(body := b))
  }

  /** Every agent carries a tag the scripts themselves write: prefab tags and "Frozen". */
  predicate TagsWritten(env: Env)
  {
    && (forall i :: 0 <= i < |env.runners| ==> WrittenTag(env.runners[i].body.tag))
    && (forall i :: 0 <= i < |env.taggers| ==> WrittenTag(env.taggers[i].body.tag))
  }

  lemma TagsWrittenGet(env: Env, q: AgentRef)
    requires TagsWritten(env) && ValidRef(env, q)
    ensures WrittenTag(Get(env, q).body.tag)
  {
  }

  /** Paying rewards keeps the tags. */
  lemma TagsWrittenUnderRewards(e: Env, e': Env)
    requires TagsWritten(e) && OnlyRewards(e, e')
    ensures TagsWritten(e')
  {
    assert forall i :: 0 <= i < |e'.runners| ==> e'.runners[i].body == e.runners[i].body;
    assert forall i :: 0 <= i < |e'.taggers| ==> e'.taggers[i].body == e.taggers[i].body;
  }

  /** Replacing one agent by one whose tag is written keeps the tags written. */
  lemma TagsWrittenUnderPut(env: Env, q: AgentRef, a: Agent)
    requires TagsWritten(env) && ValidRef(env, q) && WrittenTag(a.body.tag)
    ensures TagsWritten(Put(env, q, a))
  {
    var r := Put(env, q, a);
    forall i | 0 <= i < |r.runners|
      ensures WrittenTag(r.runners[i].body.tag)
    {
      assert r.runners[i] == Get(r, AgentRef(Runner, i));
      TagsWrittenGet(env, AgentRef(Runner, i));
    }
    forall i | 0 <= i < |r.taggers|
      ensures WrittenTag(r.taggers[i].body.tag)
    {
      assert r.taggers[i] == Get(r, AgentRef(Tagger, i));
      TagsWrittenGet(env, AgentRef(Tagger, i));
    }
  }

  /** Giving one agent a body with a written tag keeps the tags written. */
  lemma TagsWrittenUnderSetBody(env: Env, q: AgentRef, b: Movement.Body)
    requires TagsWritten(env) && ValidRef(env, q) && WrittenTag(b.tag)
    ensures TagsWritten(SetBody(env, q, b))
  {
    var r := SetBody(env, q, b);
    forall i | 0 <= i < |r.runners|
      ensures WrittenTag(r.runners[i].body.tag)
    {
      assert r.runners[i] == Get(r, AgentRef(Runner, i));
      TagsWrittenGet(env, AgentRef(Runner, i));
    }
    forall i | 0 <= i < |r.taggers|
      ensures WrittenTag(r.taggers[i].body.tag)
    {
      assert r.taggers[i] == Get(r, AgentRef(Tagger, i));
      TagsWrittenGet(env, AgentRef(Tagger, i));
    }
  }

  /** AddReward on one agent of the roster. */
  function Credit(env: Env, q: AgentRef, amount: real): (r: Env)
    requires ValidRef(env, q)
    ensures SameShape(env, r)
    ensures Get(r, q).reward == Get(env, q).reward + amount
    ensures forall p :: ValidRef(env, p) && p != q ==> Get(r, p) == Get(env, p)
    ensures OnlyRewards(env, r) && SameFrame(env, r)
  {
    Put(env, q, AddReward(Get(env, q), amount))
  }

  /** DistributeTagRewards: the tagger and the taggers' group gain, the caught runner and its group lose. */
  function DistributeTagRewards(env: Env, tagger: AgentRef, runner: AgentRef): (r: Env)
    requires ValidRef(env, tagger) && ValidRef(env, runner)
    ensures SameShape(env, r)
    ensures tagger != runner ==> Get(r, tagger).reward == Get(env, tagger).reward + env.cfg.w.t_catch
    ensures tagger != runner ==> Get(r, runner).reward == Get(env, runner).reward + env.cfg.w.r_frozen
    ensures forall p :: ValidRef(env, p) && p != tagger && p != runner ==> Get(r, p) == Get(env, p)
    ensures r.taggerGroup == env.taggerGroup + env.cfg.w.tg_catch
    ensures r.runnerGroup == env.runnerGroup + env.cfg.w.rg_freeze
    ensures OnlyRewards(env, r) && SameScene(env, r)
  {
    var w := env.cfg.w;
    var e1 := Credit(env, tagger, w.t_catch);
    var e2 := Credit(e1.(taggerGroup := e1.taggerGroup + w.tg_catch), runner, w.r_frozen);
    e2.(runnerGroup := e2.runnerGroup + w.rg_freeze)
  }

  /** DistributeSnowballHitRewards: the struck tagger, the shooting runner and both groups get their weights. */
  function DistributeSnowballHitRewards(env: Env, tagger: AgentRef, runner: AgentRef): (r: Env)
    requires ValidRef(env, tagger) && ValidRef(env, runner)
    ensures SameShape(env, r)
    ensures tagger != runner ==> Get(r, tagger).reward == Get(env, tagger).reward + env.cfg.w.t_snowball
    ensures tagger != runner ==> Get(r, runner).reward == Get(env, runner).reward + env.cfg.w.r_snowball
    ensures forall p :: ValidRef(env, p) && p != tagger && p != runner ==> Get(r, p) == Get(env, p)
    ensures r.taggerGroup == env.taggerGroup + env.cfg.w.tg_snowball
    ensures r.runnerGroup == env.runnerGroup + env.cfg.w.rg_snowball
    ensures OnlyRewards(env, r) && SameScene(env, r)
  {
    var w := env.cfg.w;
    var e1 := Credit(env, tagger, w.t_snowball);
    var e2 := Credit(e1.(taggerGroup := e1.taggerGroup + w.tg_snowball), runner, w.r_snowball);
    e2.(runnerGroup := e2.runnerGroup + w.rg_snowball)
  }

  /** DistributeThawRewards: only the helping runner and the runners' group are paid; the thawed agent gets nothing. */
  function DistributeThawRewards(env: Env, thawed: AgentRef, helper: AgentRef): (r: Env)
    requires ValidRef(env, thawed) && ValidRef(env, helper)
    ensures SameShape(env, r)
    ensures Get(r, helper).reward == Get(env, helper).reward + env.cfg.w.r_unfreeze
    ensures forall p :: ValidRef(env, p) && p != helper ==> Get(r, p) == Get(env, p)
    ensures r.runnerGroup == env.runnerGroup + env.cfg.w.rg_unfreeze_factor
    ensures r.taggerGroup == env.taggerGroup
    ensures OnlyRewards(env, r) && SameScene(env, r)
  {
    var e1 := Credit(env, helper, env.cfg.w.r_unfreeze);
    e1.(runnerGroup := e1.runnerGroup + env.cfg.w.rg_unfreeze_factor)
  }

  /** The foreach over runners that pays every unfrozen one `amount`. */
  function PayUnfrozen(rs: seq<Agent>, amount: real): (r: seq<Agent>)
    ensures |r| == |rs|
    ensures forall i :: 0 <= i < |rs| && rs[i].body.frozen ==> r[i] == rs[i]
    ensures forall i :: 0 <= i < |rs| && !rs[i].body.frozen ==> r[i] == rs[i].(reward := rs[i].reward + amount)
    decreases |rs|
  {
    if |rs| == 0 then []
    else
      var tail := PayUnfrozen(rs[1..], amount);
      var head := if IsFrozen(rs[0]) then rs[0] else AddReward(rs[0], amount);
      assert forall i :: 1 <= i < |rs| ==> ([head] + tail)[i] == tail[i - 1] && rs[1..][i - 1] == rs[i];
      [head] + tail
  }

  /** The foreach over taggers that pays every one of them `amount`. */
  function PayAll(ts: seq<Agent>, amount: real): (r: seq<Agent>)
    ensures |r| == |ts|
    ensures forall i :: 0 <= i < |ts| ==> r[i] == ts[i].(reward := ts[i].reward + amount)
    decreases |ts|
  {
    if |ts| == 0 then []
    else
      var tail := PayAll(ts[1..], amount);
      assert forall i :: 1 <= i < |ts| ==> ([AddReward(ts[0], amount)] + tail)[i] == tail[i - 1] && ts[1..][i - 1] == ts[i];
      [AddReward(ts[0], amount)] + tail
  }

  /** numAlive: the number of runners that are not frozen. */
  function CountUnfrozen(rs: seq<Agent>): (n: nat)
    ensures n <= |rs|
    decreases |rs|
  {
    if |rs| == 0 then 0
    else CountUnfrozen(rs[1..]) + (if IsFrozen(rs[0]) then 0 else 1)
  }

  /** The frozen flags of the runners, in roster order. */
  function Flags(rs: seq<Agent>): (f: seq<bool>)
    ensures |f| == |rs| && forall i :: 0 <= i < |rs| ==> f[i] == rs[i].body.frozen
  {
    seq(|rs|, i requires 0 <= i < |rs| => rs[i].body.frozen)
  }

  /** numAlive is the number of `false` entries among the frozen flags. */
  lemma {:induction false} CountUnfrozenCountsFlags(rs: seq<Agent>)
    ensures CountUnfrozen(rs) == multiset(Flags(rs))[false]
    decreases |rs|
  {
    if |rs| > 0 {
      CountUnfrozenCountsFlags(rs[1..]);
      assert Flags(rs) == [rs[0].body.frozen] + Flags(rs[1..]);
    }
  }

  /** The all-caught scan with early exit: false at the first runner that is not frozen. */
  function AllCaught(rs: seq<Agent>): (caught: bool)
    ensures caught <==> forall i :: 0 <= i < |rs| ==> rs[i].body.frozen
    decreases |rs|
  {
    if |rs| == 0 then true
    else if !IsFrozen(rs[0]) then false
    else
      var rest := AllCaught(rs[1..]);
      assert forall i :: 1 <= i < |rs| ==> rs[1..][i - 1] == rs[i];
      rest
  }

  /** All runners are caught exactly when none is left unfrozen; with no runners both hold. */
  lemma {:induction false} AllCaughtIffNoneAlive(rs: seq<Agent>)
    ensures AllCaught(rs) <==> CountUnfrozen(rs) == 0
    decreases |rs|
  {
    if |rs| > 0 {
      AllCaughtIffNoneAlive(rs[1..]);
      assert AllCaught(rs) <==> !rs[0].body.frozen == false && AllCaught(rs[1..]) by {
        assert forall i :: 1 <= i < |rs| ==> rs[1..][i - 1] == rs[i];
      }
    }
  }

  function TotalReward(rs: seq<Agent>): real
    decreases |rs|
  {
    if |rs| == 0 then 0.0 else rs[0].reward + TotalReward(rs[1..])
  }

  /** The individual payments of a per-runner foreach add up to the amount times numAlive. */
  lemma {:induction false} PayUnfrozenTotal(rs: seq<Agent>, amount: real)
    ensures TotalReward(PayUnfrozen(rs, amount)) == TotalReward(rs) + (CountUnfrozen(rs) as real) * amount
    decreases |rs|
  {
    if |rs| > 0 {
      var r := PayUnfrozen(rs, amount);
      assert r[1..] == PayUnfrozen(rs[1..], amount);
      PayUnfrozenTotal(rs[1..], amount);
    }
  }

  /** The runners' group bonus at timeout: a base plus a bonus per survivor. */
  function TimeoutGroupBonus(w: Weights, numAlive: nat): real
  {
    w.rg_win_base + w.rg_win_extra_factor * (numAlive as real)
  }

  /**
    DistributeTimeoutRewards: every unfrozen runner gets the survival bonus
    and the runners' group gets a base plus a per-survivor bonus.
   */
  function DistributeTimeoutRewards(env: Env): (r: Env)
    ensures OnlyRewards(env, r)
    ensures forall i :: 0 <= i < |env.runners| && !env.runners[i].body.frozen ==>
      r.runners[i].reward == env.runners[i].reward + env.cfg.w.r_survival
    ensures forall i :: 0 <= i < |env.runners| && env.runners[i].body.frozen ==> r.runners[i] == env.runners[i]
    ensures r.taggers == env.taggers
    ensures r.runnerGroup == env.runnerGroup + TimeoutGroupBonus(env.cfg.w, CountUnfrozen(env.runners))
    ensures r.taggerGroup == env.taggerGroup
    ensures r.resetTimer == env.resetTimer
    ensures r.cfg == env.cfg && r.scale == env.scale
    ensures r.episodesEnded == env.episodesEnded && r.episodesInterrupted == env.episodesInterrupted
  {
    var w := env.cfg.w;
    var numAlive := CountUnfrozen(env.runners);
    env.(runners := PayUnfrozen(env.runners, w.r_survival),
         runnerGroup := env.runnerGroup + TimeoutGroupBonus(w, numAlive))
  }

  /** DistributeWinRewards: every tagger gets the win bonus once and so does the taggers' group. */
  function DistributeWinRewards(env: Env): (r: Env)
    ensures OnlyRewards(env, r)
    ensures forall i :: 0 <= i < |env.taggers| ==> r.taggers[i].reward == env.taggers[i].reward + env.cfg.w.t_win
    ensures r.runners == env.runners
    ensures r.taggerGroup == env.taggerGroup + env.cfg.w.tg_win
    ensures r.runnerGroup == env.runnerGroup
    ensures r.resetTimer == env.resetTimer
    ensures r.cfg == env.cfg && r.scale == env.scale
    ensures r.episodesEnded == env.episodesEnded && r.episodesInterrupted == env.episodesInterrupted
  {
    env.(taggers := PayAll(env.taggers, env.cfg.w.t_win), taggerGroup := env.taggerGroup + env.cfg.w.tg_win)
  }

  /** A weight spread over MaxEnvironmentSteps ticks. */
  function PerStep(weight: real, maxSteps: int): real
    requires maxSteps != 0
  {
    weight / (maxSteps as real)
  }

  /** A per-survivor weight times the number of survivors, spread over MaxEnvironmentSteps ticks. */
  function GroupPerStep(weight: real, numAlive: nat, maxSteps: int): real
    requires maxSteps != 0
  {
    weight * (numAlive as real) / (maxSteps as real)
  }

  /**
    DistributeExistentialRewards: the per-tick shaping terms, each divided by
    MaxEnvironmentSteps; the runners' group term scales with numAlive.
   */
  function DistributeExistentialRewards(env: Env): (r: Env)
    requires env.cfg.maxEnvironmentSteps != 0
    ensures OnlyRewards(env, r)
    ensures forall i :: 0 <= i < |env.runners| && !env.runners[i].body.frozen ==>
      r.runners[i].reward == env.runners[i].reward + PerStep(env.cfg.w.r_existential, env.cfg.maxEnvironmentSteps)
    ensures forall i :: 0 <= i < |env.runners| && env.runners[i].body.frozen ==> r.runners[i] == env.runners[i]
    ensures forall i :: 0 <= i < |env.taggers| ==>
      r.taggers[i].reward == env.taggers[i].reward + PerStep(env.cfg.w.t_existential, env.cfg.maxEnvironmentSteps)
    ensures r.runnerGroup == env.runnerGroup
      + GroupPerStep(env.cfg.w.rg_existential, CountUnfrozen(env.runners), env.cfg.maxEnvironmentSteps)
    ensures r.taggerGroup == env.taggerGroup + PerStep(env.cfg.w.tg_existential, env.cfg.maxEnvironmentSteps)
    ensures r.resetTimer == env.resetTimer
    ensures r.cfg == env.cfg && r.scale == env.scale
    ensures r.episodesEnded == env.episodesEnded && r.episodesInterrupted == env.episodesInterrupted
  {
    var w := env.cfg.w;
    var m := env.cfg.maxEnvironmentSteps;
    var numAlive := CountUnfrozen(env.runners);
    env.(runners := PayUnfrozen(env.runners, PerStep(w.r_existential, m)),
         runnerGroup := env.runnerGroup + GroupPerStep(w.rg_existential, numAlive, m),
         taggers := PayAll(env.taggers, PerStep(w.t_existential, m)),
         taggerGroup := env.taggerGroup + PerStep(w.tg_existential, m))
  }

  /** All agents' positions, runners first, in the order spawn points are assigned. */
  function Positions(env: Env): (ps: seq<Vec3>)
    ensures |ps| == |env.runners| + |env.taggers|
  {
    seq(|env.runners| + |env.taggers|,
        i requires 0 <= i < |env.runners| + |env.taggers| =>
          if i < |env.runners| then env.runners[i].position else env.taggers[i - |env.runners|].position)
  }

  /** The agent state ResetScene leaves alone: role, body (and so the frozen flag and tag), trigger, reward. */
  predicate KeepsState(a: Agent, b: Agent)
  {
    a.role == b.role && a.body == b.body && a.trigger == b.trigger && a.reward == b.reward
  }

  /** What no tick changes: an agent's role, its Movement body and its snowball trigger. */
  predicate KeepsIdentity(a: Agent, b: Agent)
  {
    a.role == b.role && a.body == b.body && a.trigger == b.trigger
  }

  /**
    ResetScene: the timer restarts, every agent is moved to its own sampled
    spawn point, and only the first runner may be armed for an initial
    freeze, by the Bernoulli draw. Frozen flags and rewards are untouched.
   */
  function ResetScene(env: Env, d: ResetDraws): (r: Env)
    requires Valid(env) && DrawsFor(env.cfg, d)
    ensures Valid(r) && r.resetTimer == 0
    ensures |r.runners| == |env.runners| && |r.taggers| == |env.taggers|
    ensures forall i :: 0 <= i < |r.runners| ==> KeepsState(env.runners[i], r.runners[i])
    ensures forall i :: 0 <= i < |r.taggers| ==> KeepsState(env.taggers[i], r.taggers[i])
    ensures forall i :: 0 <= i < |r.runners| && r.runners[i].initialFreeze ==> i == 0
    ensures |r.runners| > 0 ==> (r.runners[0].initialFreeze <==> d.initiallyFrozen < env.cfg.initiallyFrozenProbability)
    ensures forall i :: 0 <= i < |r.taggers| ==> r.taggers[i].initialFreeze == env.taggers[i].initialFreeze
    ensures forall k :: 0 <= k < |Positions(r)| ==> Positions(r)[k] in Spawn.Pool(env.scale)
    ensures env.scale != 0.0 ==> Distinct(Positions(r))
    ensures Positions(r) == Spawn.SampleSpawnPoints(env.scale, d.spawn, env.cfg.numRunners + env.cfg.numTaggers).value
    ensures r.cfg == env.cfg && r.scale == env.scale
    ensures r.runnerGroup == env.runnerGroup && r.taggerGroup == env.taggerGroup
    ensures r.episodesEnded == env.episodesEnded && r.episodesInterrupted == env.episodesInterrupted
  {
    var n := env.cfg.numRunners;
    var pts := Spawn.SampleSpawnPoints(env.scale, d.spawn, n + env.cfg.numTaggers).value;
    Relocate(env, pts, d.initiallyFrozen < env.cfg.initiallyFrozenProbability)
  }

  /** Restarts the timer and puts runners then taggers on the points in order. */
  function Relocate(env: Env, pts: seq<Vec3>, armFirst: bool): (r: Env)
    requires Valid(env) && |pts| == |env.runners| + |env.taggers|
    ensures Valid(r) && r.resetTimer == 0 && Positions(r) == pts
    ensures |r.runners| == |env.runners| && |r.taggers| == |env.taggers|
    ensures forall i :: 0 <= i < |r.runners| ==> KeepsState(env.runners[i], r.runners[i])
    ensures forall i :: 0 <= i < |r.taggers| ==> KeepsState(env.taggers[i], r.taggers[i])
    ensures forall i :: 0 <= i < |r.runners| ==> (r.runners[i].initialFreeze <==> armFirst && i == 0)
    ensures forall i :: 0 <= i < |r.taggers| ==> r.taggers[i].initialFreeze == env.taggers[i].initialFreeze
    ensures r.cfg == env.cfg && r.scale == env.scale
    ensures r.runnerGroup == env.runnerGroup && r.taggerGroup == env.taggerGroup
    ensures r.episodesEnded == env.episodesEnded && r.episodesInterrupted == env.episodesInterrupted
  {
    var n := |env.runners|;
    var r := env.(resetTimer := 0,
                  runners := MoveRunners(env.runners, pts[..n], armFirst),
                  taggers := MoveTaggers(env.taggers, pts[n..]));
    PositionsAre(r, pts);
    r
  }

  /** Moves each runner to its point; only the first may be armed for an initial freeze. */
  function MoveRunners(rs: seq<Agent>, pts: seq<Vec3>, armFirst: bool): (r: seq<Agent>)
    requires |pts| == |rs|
    ensures |r| == |rs|
    ensures forall i :: 0 <= i < |rs| ==> r[i] == rs[i].(position := pts[i], initialFreeze := armFirst && i == 0)
  {
    seq(|rs|, i requires 0 <= i < |rs| => rs[i].(position := pts[i], initialFreeze := armFirst && i == 0))
  }

  /** Moves each tagger to its point. */
  function MoveTaggers(ts: seq<Agent>, pts: seq<Vec3>): (r: seq<Agent>)
    requires |pts| == |ts|
    ensures |r| == |ts|
    ensures forall i :: 0 <= i < |ts| ==> r[i] == ts[i].(position := pts[i])
  {
    seq(|ts|, i requires 0 <= i < |ts| => ts[i].(position := pts[i]))
  }

  lemma PositionsAre(env: Env, pts: seq<Vec3>)
    requires |pts| == |env.runners| + |env.taggers|
    requires forall i :: 0 <= i < |env.runners| ==> env.runners[i].position == pts[i]
    requires forall i :: 0 <= i < |env.taggers| ==> env.taggers[i].position == pts[|env.runners| + i]
    ensures Positions(env) == pts
  {
  }

  /** Interrupt: the scene is reset and both groups are told the episode was cut short; no reward is paid. */
  function Interrupt(env: Env, d: ResetDraws): (r: Env)
    requires Valid(env) && DrawsFor(env.cfg, d)
    ensures SameShape(env, r) && Valid(r) && r.resetTimer == 0
    ensures r.episodesInterrupted == env.episodesInterrupted + 1 && r.episodesEnded == env.episodesEnded
    ensures r.runnerGroup == env.runnerGroup && r.taggerGroup == env.taggerGroup
    ensures forall i :: 0 <= i < |r.runners| ==> KeepsState(env.runners[i], r.runners[i])
    ensures forall i :: 0 <= i < |r.taggers| ==> KeepsState(env.taggers[i], r.taggers[i])
    ensures forall i :: 0 <= i < |r.runners| && r.runners[i].initialFreeze ==> i == 0
    ensures |r.runners| > 0 ==> (r.runners[0].initialFreeze <==> d.initiallyFrozen < env.cfg.initiallyFrozenProbability)
    ensures forall i :: 0 <= i < |r.taggers| ==> r.taggers[i].initialFreeze == env.taggers[i].initialFreeze
    ensures Positions(r) == Spawn.SampleSpawnPoints(env.scale, d.spawn, env.cfg.numRunners + env.cfg.numTaggers).value
    ensures r.cfg == env.cfg && r.scale == env.scale
  {
    var reset := ResetScene(env, d);
    reset.(episodesInterrupted := reset.episodesInterrupted + 1)
  }

  /** Which of the three mutually exclusive branches a tick took. */
  datatype Branch = TimedOut | Caught | Continued

  datatype TickResult = TickResult(env: Env, branch: Branch)

  /**
    FixedUpdate of the environment: the timer is incremented, then exactly
    one of timeout, all-caught win, or existential rewards happens.
   */
  function Tick(env: Env, d: ResetDraws): (t: TickResult)
    requires Valid(env) && DrawsFor(env.cfg, d)
    ensures Valid(t.env) && t.env.cfg == env.cfg && t.env.scale == env.scale
    ensures t.branch == TimedOut <==> env.resetTimer + 1 > env.cfg.maxEnvironmentSteps
    ensures t.branch == Caught <==>
      env.resetTimer + 1 <= env.cfg.maxEnvironmentSteps && forall i :: 0 <= i < |env.runners| ==> env.runners[i].body.frozen
    ensures t.branch == Continued <==>
      env.resetTimer + 1 <= env.cfg.maxEnvironmentSteps && exists i :: 0 <= i < |env.runners| && !env.runners[i].body.frozen
    ensures t.branch != Continued ==> t.env.resetTimer == 0 && t.env.episodesEnded == env.episodesEnded + 1
    ensures t.branch == Continued ==> t.env.resetTimer == env.resetTimer + 1 && t.env.episodesEnded == env.episodesEnded
    ensures t.env.episodesInterrupted == env.episodesInterrupted
    ensures 0 <= env.resetTimer <= env.cfg.maxEnvironmentSteps ==> 0 <= t.env.resetTimer <= env.cfg.maxEnvironmentSteps
    ensures |t.env.runners| == |env.runners| && |t.env.taggers| == |env.taggers|
    ensures forall i :: 0 <= i < |env.runners| ==> KeepsIdentity(env.runners[i], t.env.runners[i])
    ensures forall i :: 0 <= i < |env.taggers| ==> KeepsIdentity(env.taggers[i], t.env.taggers[i])
    ensures t.branch == Continued ==> OnlyRewards(env, t.env)
    ensures t.branch != Continued ==>
      forall i :: 0 <= i < |t.env.runners| && t.env.runners[i].initialFreeze ==> i == 0
  {
    var e := env.(resetTimer := env.resetTimer + 1);
    if e.resetTimer > env.cfg.maxEnvironmentSteps then
      var r := DistributeTimeoutRewards(ResetScene(e, d));
      TickResult(r.(episodesEnded := r.episodesEnded + 1), TimedOut)
    else if AllCaught(e.runners) then
      var r := ResetScene(DistributeWinRewards(e), d);
      TickResult(r.(episodesEnded := r.episodesEnded + 1), Caught)
    else
      TickResult(DistributeExistentialRewards(e), Continued)
  }

  /**
    On timeout the survivors are counted after ResetScene, which keeps every
    frozen flag: each runner unfrozen before the tick gets the survival
    bonus, and the group bonus scales with exactly that count.
   */
  lemma TimeoutPaysSurvivors(env: Env, d: ResetDraws)
    requires Valid(env) && DrawsFor(env.cfg, d)
    requires Tick(env, d).branch == TimedOut
    ensures var r := Tick(env, d).env;
      forall i :: 0 <= i < |env.runners| ==>
        r.runners[i].reward == env.runners[i].reward + (if env.runners[i].body.frozen then 0.0 else env.cfg.w.r_survival)
    ensures var r := Tick(env, d).env;
      r.runnerGroup == env.runnerGroup + TimeoutGroupBonus(env.cfg.w, CountUnfrozen(env.runners))
    ensures var r := Tick(env, d).env;
      r.taggerGroup == env.taggerGroup && forall i :: 0 <= i < |env.taggers| ==> r.taggers[i].reward == env.taggers[i].reward
  {
    var e := env.(resetTimer := env.resetTimer + 1);
    var reset := ResetScene(e, d);
    var paid := DistributeTimeoutRewards(reset);
    assert Tick(env, d).env == paid.(episodesEnded := paid.episodesEnded + 1);
    SameFrozenSameCount(env.runners, reset.runners);
  }

  lemma {:induction false} SameFrozenSameCount(a: seq<Agent>, b: seq<Agent>)
    requires |a| == |b| && forall i :: 0 <= i < |a| ==> a[i].body.frozen == b[i].body.frozen
    ensures CountUnfrozen(a) == CountUnfrozen(b)
    decreases |a|
  {
    if |a| > 0 {
      assert forall i :: 0 <= i < |a| - 1 ==> a[1..][i] == a[i + 1] && b[1..][i] == b[i + 1];
      SameFrozenSameCount(a[1..], b[1..]);
    }
  }

  /** A win pays each tagger and the taggers' group once, pays no runner, and pays no timeout bonus. */
  lemma WinPaysTaggersOnce(env: Env, d: ResetDraws)
    requires Valid(env) && DrawsFor(env.cfg, d)
    requires Tick(env, d).branch == Caught
    ensures var r := Tick(env, d).env;
      forall i :: 0 <= i < |env.taggers| ==> r.taggers[i].reward == env.taggers[i].reward + env.cfg.w.t_win
    ensures var r := Tick(env, d).env;
      forall i :: 0 <= i < |env.runners| ==> r.runners[i].reward == env.runners[i].reward
    ensures var r := Tick(env, d).env;
      r.taggerGroup == env.taggerGroup + env.cfg.w.tg_win && r.runnerGroup == env.runnerGroup
  {
  }

  /**
    A tick that neither times out nor finds every runner caught pays exactly
    the per-step existential terms: each unfrozen runner and each tagger its
    share, both groups their terms, and no frozen runner anything.
   */
  lemma ContinuedPaysExistential(env: Env, d: ResetDraws)
    requires Valid(env) && DrawsFor(env.cfg, d)
    requires Tick(env, d).branch == Continued
    ensures env.cfg.maxEnvironmentSteps >= 1
    ensures var r := Tick(env, d).env;
      forall i :: 0 <= i < |env.runners| ==>
        r.runners[i].reward == env.runners[i].reward
          + (if env.runners[i].body.frozen then 0.0 else PerStep(env.cfg.w.r_existential, env.cfg.maxEnvironmentSteps))
    ensures var r := Tick(env, d).env;
      forall i :: 0 <= i < |env.taggers| ==>
        r.taggers[i].reward == env.taggers[i].reward + PerStep(env.cfg.w.t_existential, env.cfg.maxEnvironmentSteps)
    ensures var r := Tick(env, d).env;
      r.runnerGroup == env.runnerGroup
        + GroupPerStep(env.cfg.w.rg_existential, CountUnfrozen(env.runners), env.cfg.maxEnvironmentSteps)
    ensures var r := Tick(env, d).env;
      r.taggerGroup == env.taggerGroup + PerStep(env.cfg.w.tg_existential, env.cfg.maxEnvironmentSteps)
  {
    var e := env.(resetTimer := env.resetTimer + 1);
    assert !AllCaught(e.runners);
    assert Tick(env, d).env == DistributeExistentialRewards(e);
  }

  /** `ds` ticks in a row, the i-th consuming the i-th draws if it resets the scene. */
  function Ticks(env: Env, ds: seq<ResetDraws>): (r: Env)
    requires Valid(env) && forall i :: 0 <= i < |ds| ==> DrawsFor(env.cfg, ds[i])
    ensures Valid(r) && r.cfg == env.cfg
    decreases |ds|
  {
    if |ds| == 0 then env
    else
      var next := Tick(env, ds[0]).env;
      assert forall i :: 0 <= i < |ds[1..]| ==> ds[1..][i] == ds[i + 1];
      Ticks(next, ds[1..])
  }

  lemma {:induction false} ExistentialAccumulates(env: Env, ds: seq<ResetDraws>, i: nat)
    requires Valid(env) && forall k :: 0 <= k < |ds| ==> DrawsFor(env.cfg, ds[k])
    requires env.resetTimer + |ds| <= env.cfg.maxEnvironmentSteps && env.cfg.maxEnvironmentSteps != 0
    requires i < |env.runners| && !env.runners[i].body.frozen
    ensures var r := Ticks(env, ds);
      && r.resetTimer == env.resetTimer + |ds|
      && i < |r.runners| && r.runners[i].body == env.runners[i].body
      && r.runners[i].reward
         == env.runners[i].reward + Repeated(|ds|, PerStep(env.cfg.w.r_existential, env.cfg.maxEnvironmentSteps))
    decreases |ds|
  {
    if |ds| > 0 {
      var next := ContinuedTick(env, ds[0], i);
      var rest := ds[1..];
      assert forall k :: 0 <= k < |rest| ==> rest[k] == ds[k + 1];
      assert Ticks(env, ds) == Ticks(next, rest);
      ExistentialAccumulates(next, rest, i);
    }
  }

  /** MaxEnvironmentSteps per-step shares of a weight add back up to the weight. */
  lemma RepeatedPerStep(weight: real, maxSteps: nat)
    requires maxSteps != 0
    ensures Repeated(maxSteps, PerStep(weight, maxSteps)) == weight
  {
    RepeatedIsProduct(maxSteps, PerStep(weight, maxSteps));
    assert (maxSteps as real) * (weight / (maxSteps as real)) == weight;
  }

  /** The sum of `n` equal rewards `p`. */
  function Repeated(n: nat, p: real): real
    decreases n
  {
    if n == 0 then 0.0 else p + Repeated(n - 1, p)
  }

  lemma {:induction false} RepeatedIsProduct(n: nat, p: real)
    ensures Repeated(n, p) == (n as real) * p
    decreases n
  {
    if n > 0 {
      RepeatedIsProduct(n - 1, p);
      assert ((n - 1) as real) * p + p == (n as real) * p;
    }
  }

  /** A tick before the time limit with some runner still unfrozen only pays existential rewards. */
  lemma ContinuedTick(env: Env, d: ResetDraws, i: nat) returns (next: Env)
    requires Valid(env) && DrawsFor(env.cfg, d)
    requires env.resetTimer + 1 <= env.cfg.maxEnvironmentSteps
    requires i < |env.runners| && !env.runners[i].body.frozen
    ensures next == Tick(env, d).env
    ensures Valid(next) && next.cfg == env.cfg && next.resetTimer == env.resetTimer + 1
    ensures i < |next.runners| && next.runners[i].body == env.runners[i].body
    ensures next.runners[i].reward == env.runners[i].reward + PerStep(env.cfg.w.r_existential, env.cfg.maxEnvironmentSteps)
  {
    var e := env.(resetTimer := env.resetTimer + 1);
    assert !AllCaught(e.runners);
    next := DistributeExistentialRewards(e);
  }

  /**
    A runner that stays unfrozen from the start of an episode collects
    exactly MaxEnvironmentSteps existential rewards, which add up to
    r_existential; the tick after them is the timeout.
   */
  lemma ExistentialSumsToWeight(env: Env, ds: seq<ResetDraws>, i: nat, d: ResetDraws)
    requires Valid(env) && env.resetTimer == 0 && env.cfg.maxEnvironmentSteps >= 1
    requires |ds| == env.cfg.maxEnvironmentSteps
    requires forall k :: 0 <= k < |ds| ==> DrawsFor(env.cfg, ds[k])
    requires DrawsFor(env.cfg, d)
    requires i < |env.runners| && !env.runners[i].body.frozen
    ensures Ticks(env, ds).runners[i].reward == env.runners[i].reward + env.cfg.w.r_existential
    ensures Tick(Ticks(env, ds), d).branch == TimedOut
  {
    var m := env.cfg.maxEnvironmentSteps;
    var p := PerStep(env.cfg.w.r_existential, m);
    ExistentialAccumulates(env, ds, i);
    var r := Ticks(env, ds);
    assert r.runners[i].reward == env.runners[i].reward + Repeated(m, p);
    RepeatedPerStep(env.cfg.w.r_existential, m);
    assert r.resetTimer + 1 > r.cfg.maxEnvironmentSteps;
  }

  /**
    Awake: samples one spawn point per agent, instantiates the runners and
    then the taggers, and arms only runner 0 for an initial freeze. It fails
    when the pool holds fewer points than there are agents.
   */
  function Awake(cfg: Config, scale: real, d: ResetDraws): (r: Result<Env>)
    requires DrawsFor(cfg, d)
    ensures r.Ok? <==> cfg.numRunners + cfg.numTaggers <= Spawn.PoolSize
    ensures r.Ok? ==> Valid(r.value) && r.value.cfg == cfg && r.value.resetTimer == 0
    ensures r.Ok? ==> forall i :: 0 <= i < |r.value.runners| && r.value.runners[i].initialFreeze ==> i == 0
    ensures r.Ok? ==> forall i :: 0 <= i < |r.value.taggers| ==> !r.value.taggers[i].initialFreeze
    ensures r.Ok? ==> forall i :: 0 <= i < |r.value.runners| ==>
      r.value.runners[i].role == Runner && r.value.runners[i].body.tag == RunnerTag && !r.value.runners[i].body.frozen
    ensures r.Ok? ==> forall i :: 0 <= i < |r.value.taggers| ==>
      r.value.taggers[i].role == Tagger && r.value.taggers[i].body.tag == TaggerTag && !r.value.taggers[i].body.frozen
    ensures r.Ok? && scale != 0.0 ==> Distinct(Positions(r.value))
  {
    var n := cfg.numRunners;
    var initiallyFrozen := d.initiallyFrozen < cfg.initiallyFrozenProbability;
    match Spawn.SampleSpawnPoints(scale, d.spawn, n + cfg.numTaggers)
    case Failure(e) => Failure(e)
    case Ok(pts) =>
      var runners := Roster(Runner, cfg.cooldownTime, pts[..n], initiallyFrozen);
      var taggers := Roster(Tagger, cfg.cooldownTime, pts[n..], false);
      var env := Env(cfg, scale, runners, taggers, 0.0, 0.0, 0, 0, 0);
      assert Positions(env) == pts;
      Ok(env)
  }

  /**
    With the serialized defaults (5 runners, 2 taggers, 5000 steps) Awake
    succeeds: seven agents fit the pool of 15, and the budget admits
    existential rewards.
   */
  lemma DefaultAwakeSucceeds(scale: real, d: ResetDraws)
    requires DrawsFor(DefaultConfig, d)
    ensures Awake(DefaultConfig, scale, d).Ok?
    ensures |Awake(DefaultConfig, scale, d).value.runners| == 5
    ensures |Awake(DefaultConfig, scale, d).value.taggers| == 2
    ensures DefaultConfig.maxEnvironmentSteps != 0
  {
  }

  /** Instantiates one agent per spawn point; only the first can be armed for an initial freeze. */
  function Roster(role: Role, cooldownTime: int, pts: seq<Vec3>, armFirst: bool): (rs: seq<Agent>)
    ensures |rs| == |pts|
    ensures forall i :: 0 <= i < |pts| ==>
      && rs[i].role == role && rs[i].body.tag == PrefabTag(role) && !rs[i].body.frozen
      && rs[i].position == pts[i] && (rs[i].initialFreeze <==> armFirst && i == 0)
  {
    seq(|pts|, i requires 0 <= i < |pts| => Instantiate(role, cooldownTime, pts[i], armFirst && i == 0))
  }
}

=== FILE: episode.dfy ===
/**
  Runs of the whole scene: the environment's ticks and interrupts
  interleaved with agents' episode begins and agent and snowball collisions. The tag strings written by
  Freeze, Unfreeze and the prefabs never include "FrozenRunner", so along any
  run that starts from Awake the thaw rule of TagAgent.OnCollisionEnter
  never fires.
 */
module Episode {
  import opened Common
  import Movement
  import opened EnvController
  import TagAgent
  import AgentCollisions
  import Snowball

  /** One thing that can happen to the scene between two observations. */
  datatype Event =
    | EnvTick(d: ResetDraws)
    | EnvInterrupt(d: ResetDraws)
    | AgentTouch(self: AgentRef, other: Option<AgentRef>, canUnfreeze: bool)
    | SnowballTouch(owner: AgentRef, struck: Snowball.Struck, canFreeze: bool)
    | EpisodeBegin(agent: AgentRef, afterReset: Movement.Body)

  /**
    The event can happen in `env`: its draws fit and it names agents of the
    roster. Movement.Reset is not part of this model: an episode begin takes
    the body it leaves, which is assumed to carry a tag the scripts write.
   */
  predicate Enabled(env: Env, e: Event)
  {
    match e
    case EnvTick(d) => DrawsFor(env.cfg, d)
    case EnvInterrupt(d) => DrawsFor(env.cfg, d)
    case AgentTouch(self, other, _) => ValidRef(env, self) && (other.Some? ==> ValidRef(env, other.value))
    case SnowballTouch(owner, struck, _) => ValidRef(env, owner) && (struck.AgentBody? ==> ValidRef(env, struck.who))
    case EpisodeBegin(q, afterReset) => ValidRef(env, q) && WrittenTag(afterReset.tag)
  }

  /** The effect of one event; an event that cannot happen leaves the scene as it is. */
  function Step(env: Env, e: Event): (r: Env)
    requires Valid(env)
    ensures Valid(r) && r.cfg == env.cfg
    ensures !Enabled(env, e) ==> r == env
  {
    if !Enabled(env, e) then env
    else
      match e
      case EnvTick(d) => Tick(env, d).env
      case EnvInterrupt(d) => Interrupt(env, d)
      case AgentTouch(self, other, canUnfreeze) => AgentCollisions.OnCollisionEnter(env, self, other, canUnfreeze).env
      case SnowballTouch(owner, struck, canFreeze) => Snowball.OnCollisionEnter(env, owner, struck, canFreeze).env
      case EpisodeBegin(q, afterReset) => Put(env, q, TagAgent.OnEpisodeBegin(Get(env, q), afterReset))
  }

  function Run(env: Env, es: seq<Event>): (r: Env)
    requires Valid(env)
    ensures Valid(r) && r.cfg == env.cfg
    decreases |es|
  {
    if |es| == 0 then env else Run(Step(env, es[0]), es[1..])
  }

  /** Awake creates agents tagged only with their prefab tags. */
  lemma AwakeWritesTags(cfg: Config, scale: real, d: ResetDraws)
    requires DrawsFor(cfg, d)
    requires Awake(cfg, scale, d).Ok?
    ensures TagsWritten(Awake(cfg, scale, d).value)
  {
  }

  /** Every event keeps every tag one the scripts write. */
  lemma StepKeepsTagsWritten(env: Env, e: Event)
    requires Valid(env) && TagsWritten(env)
    ensures TagsWritten(Step(env, e))
  {
    if Enabled(env, e) {
      match e
      case EnvTick(d) =>
        var r := Tick(env, d).env;
        assert forall i :: 0 <= i < |r.runners| ==> r.runners[i].body == env.runners[i].body;
      case EnvInterrupt(d) =>
        var r := Interrupt(env, d);
        assert forall i :: 0 <= i < |r.runners| ==> r.runners[i].body == env.runners[i].body;
        assert forall i :: 0 <= i < |r.taggers| ==> r.taggers[i].body == env.taggers[i].body;
      case AgentTouch(self, other, canUnfreeze) =>
        AgentCollisions.KeepsTagsWritten(env, self, other, canUnfreeze);
      case SnowballTouch(owner, struck, canFreeze) =>
        Snowball.KeepsTagsWritten(env, owner, struck, canFreeze);
      case EpisodeBegin(q, afterReset) =>
        Movement.FlipsKeepWrittenTags(afterReset);
        TagsWrittenUnderPut(env, q, TagAgent.OnEpisodeBegin(Get(env, q), afterReset));
    }
  }

  lemma {:induction false} RunKeepsTagsWritten(env: Env, es: seq<Event>)
    requires Valid(env) && TagsWritten(env)
    ensures TagsWritten(Run(env, es))
    decreases |es|
  {
    if |es| > 0 {
      StepKeepsTagsWritten(env, es[0]);
      RunKeepsTagsWritten(Step(env, es[0]), es[1..]);
    }
  }

  /**
    Whatever happens after Awake, a touch between two agents is never
    resolved as a thaw, provided every Movement.Reset leaves a written tag:
    a frozen runner stays frozen until the episode's reset code unfreezes it.
   */
  lemma ThawNeverFires(cfg: Config, scale: real, d: ResetDraws, es: seq<Event>,
                       self: AgentRef, other: Option<AgentRef>, canUnfreeze: bool)
    requires DrawsFor(cfg, d) && Awake(cfg, scale, d).Ok?
    requires var env := Run(Awake(cfg, scale, d).value, es);
      ValidRef(env, self) && (other.Some? ==> ValidRef(env, other.value))
    ensures var env := Run(Awake(cfg, scale, d).value, es);
      AgentCollisions.OnCollisionEnter(env, self, other, canUnfreeze).outcome != AgentCollisions.Thawed
  {
    var start := Awake(cfg, scale, d).value;
    AwakeWritesTags(cfg, scale, d);
    RunKeepsTagsWritten(start, es);
    AgentCollisions.ThawUnreachable(Run(start, es), self, other, canUnfreeze);
  }

  /**
    A tagger frozen by a snowball carries the tag "Frozen" afterwards, so
    touching a runner no longer tags it.
   */
  lemma SnowballedTaggerCannotTag(env: Env, owner: AgentRef, tagger: AgentRef, canFreeze: bool, runner: AgentRef)
    requires ValidRef(env, owner) && ValidRef(env, tagger) && ValidRef(env, runner)
    requires Get(env, tagger).body.tag == TaggerTag && !Get(env, tagger).body.frozen
    requires Snowball.OnCollisionEnter(env, owner, Snowball.AgentBody(tagger), canFreeze).hit
    ensures var hit := Snowball.OnCollisionEnter(env, owner, Snowball.AgentBody(tagger), canFreeze).env;
      && Get(hit, tagger).body.tag == FrozenTag
      && AgentCollisions.OnCollisionEnter(hit, runner, Some(tagger), false).outcome != AgentCollisions.Tagged
  {
  }

  /**
    The assumption on Movement.Reset is needed: a reset body tagged
    "FrozenRunner" would make the thaw rule fire on a teammate's touch.
   */
  lemma ResetTagAssumptionNeeded(env: Env, q: AgentRef, helper: AgentRef, afterReset: Movement.Body)
    requires ValidRef(env, q) && ValidRef(env, helper) && q != helper
    requires Get(env, helper).body.tag == RunnerTag
    requires afterReset.tag == FrozenRunnerTag && !Get(env, q).initialFreeze
    ensures !WrittenTag(afterReset.tag)
    ensures var begun := Put(env, q, TagAgent.OnEpisodeBegin(Get(env, q), afterReset));
      AgentCollisions.OnCollisionEnter(begun, q, Some(helper), true).outcome == AgentCollisions.Thawed
  {
  }
}

=== FILE: movement.dfy ===
/**
  The Movement script: a per-agent flag machine for freezing and jumping.

  The rigid-body velocity, AdjustVelocity, rotation and the jump impulse's
  magnitude are floating-point physics and are not part of this model; what
  remains is the discrete state the script keeps (frozen flag, latched jump
  request, ground flag, last ground normal, desired planar velocity) plus the
  GameObject's tag string, which Freeze and Unfreeze rewrite.
 */
module Movement {
  import opened Common

  datatype Body = Body(
    tag: string,
    frozen: bool,
    kinematic: bool,
    desiredVelocity: Vec3,
    rotateDir: real,
    desiredJump: bool,
    onGround: bool,
    contactNormal: Vec3)

  /** Two bodies agree on everything except the freeze-related fields. */
  predicate SameMotion(a: Body, b: Body)
  {
    && a.desiredVelocity == b.desiredVelocity
    && a.rotateDir == b.rotateDir
    && a.desiredJump == b.desiredJump
    && a.onGround == b.onGround
    && a.contactNormal == b.contactNormal
  }

  /** A freshly instantiated body: Awake clears the jump latch and the frozen flag. */
  function Spawned(tag: string): (b: Body)
    ensures b.tag == tag && !b.frozen && !b.desiredJump && !b.onGround
  {
    Body(tag, false, false, ZeroVec, 0.0, false, false, ZeroVec)
  }

  /** Freeze is guarded by the frozen flag; the first call also retags the object "Frozen". */
  function Freeze(b: Body): (r: Body)
    ensures r.frozen
    ensures b.frozen ==> r == b
    ensures !b.frozen ==> r.tag == FrozenTag && r.kinematic
    ensures SameMotion(b, r)
  {
    if b.frozen then b
    else b.(frozen := true, kinematic := true, tag := FrozenTag)
  }

  /** Unfreeze is guarded by the frozen flag; it retags the object "Runner" whatever its role. */
  function Unfreeze(b: Body): (r: Body)
    ensures !r.frozen
    ensures !b.frozen ==> r == b
    ensures b.frozen ==> r.tag == RunnerTag && !r.kinematic
    ensures SameMotion(b, r)
  {
    if !b.frozen then b
    else b.(frozen := false, kinematic := false, tag := RunnerTag)
  }

  lemma FreezeIdempotent(b: Body)
    ensures Freeze(Freeze(b)) == Freeze(b)
  {
  }

  lemma UnfreezeIdempotent(b: Body)
    ensures Unfreeze(Unfreeze(b)) == Unfreeze(b)
  {
  }

  /** Freezing an unfrozen runner and thawing it again restores the body exactly. */
  lemma FreezeThenUnfreeze(b: Body)
    requires !b.frozen && !b.kinematic && b.tag == RunnerTag
    ensures Unfreeze(Freeze(b)) == b
    ensures Freeze(Unfreeze(Freeze(b))) == Freeze(b)
  {
  }

  /** A tagger that is frozen and later unfrozen carries the runner tag afterwards. */
  lemma UnfreezeRetagsTagger(b: Body)
    requires b.tag == TaggerTag
    ensures Unfreeze(Freeze(b)).tag == RunnerTag
    ensures Unfreeze(Freeze(b)).tag != b.tag
  {
  }

  /** Freeze and Unfreeze only ever write tags from the set the scripts use, never "FrozenRunner". */
  lemma FlipsKeepWrittenTags(b: Body)
    requires WrittenTag(b.tag)
    ensures WrittenTag(Freeze(b).tag) && WrittenTag(Unfreeze(b).tag)
    ensures Freeze(b).tag != FrozenRunnerTag && Unfreeze(b).tag != FrozenRunnerTag
  {
  }

  /** The stick input after Vector2.ClampMagnitude(input, 1), which is not part of this model. */
  datatype Planar = Planar(x: real, y: real)

  /**
    Move buffers the desired planar velocity and the rotation, and latches a
    jump request by OR; it runs whether or not the body is frozen.
   */
  function Move(b: Body, input: Planar, rotate: real, jump: int, maxSpeed: real): (r: Body)
    ensures r.desiredVelocity.y == 0.0
    ensures r.desiredVelocity.x == input.x * maxSpeed && r.desiredVelocity.z == input.y * maxSpeed
    ensures r.rotateDir == rotate
    ensures r.desiredJump <==> b.desiredJump || jump == 1
    ensures r.tag == b.tag && r.frozen == b.frozen && r.kinematic == b.kinematic
    ensures r.onGround == b.onGround && r.contactNormal == b.contactNormal
  {
    b.(rotateDir := rotate,
       desiredJump := b.desiredJump || jump == 1,
       desiredVelocity := Vec3(input.x * maxSpeed, 0.0, input.y * maxSpeed))
  }

  /** The outcome of one physics tick: the new body and whether a jump impulse was applied. */
  datatype Step = Step(body: Body, jumpImpulse: bool)

  /**
    One FixedUpdate. A frozen body returns at once; otherwise the contact
    normal falls back to Up when airborne, a latched jump is consumed (and
    yields an impulse only when Jump's on-ground guard holds), and the
    ground flag is cleared.
   */
  function FixedUpdate(b: Body): (s: Step)
    ensures b.frozen ==> s.body == b && !s.jumpImpulse
    ensures !b.frozen ==> !s.body.desiredJump && !s.body.onGround
    ensures s.jumpImpulse <==> !b.frozen && b.desiredJump && b.onGround
    ensures !b.frozen && !b.onGround ==> s.body.contactNormal == Up
    ensures !b.frozen && b.onGround ==> s.body.contactNormal == b.contactNormal
    ensures s.body.tag == b.tag && s.body.frozen == b.frozen && s.body.kinematic == b.kinematic
    ensures s.body.desiredVelocity == b.desiredVelocity && s.body.rotateDir == b.rotateDir
  {
    if b.frozen then Step(b, false)
    else
      var normal := if !b.onGround then Up else b.contactNormal;
      var impulse := b.desiredJump && b.onGround;
      Step(b.(contactNormal := normal, desiredJump := false, onGround := false), impulse)
  }

  /** A contact normal counts as ground when its vertical component reaches the threshold. */
  predicate Ground(n: Vec3, minGroundDot: real)
  {
    n.y >= minGroundDot
  }

  /**
    EvaluateCollision: walks the contacts in order; each ground contact sets
    the ground flag and becomes the contact normal, so the last one wins.
   */
  function EvaluateCollision(b: Body, normals: seq<Vec3>, minGroundDot: real): (r: Body)
    ensures r.onGround <==> b.onGround || exists i :: 0 <= i < |normals| && Ground(normals[i], minGroundDot)
    ensures (exists i :: 0 <= i < |normals| && Ground(normals[i], minGroundDot)) ==>
      exists i :: 0 <= i < |normals| && Ground(normals[i], minGroundDot) && r.contactNormal == normals[i]
        && forall j :: i < j < |normals| ==> !Ground(normals[j], minGroundDot)
    ensures (forall i :: 0 <= i < |normals| ==> !Ground(normals[i], minGroundDot)) ==> r == b
    ensures r == b.(onGround := r.onGround, contactNormal := r.contactNormal)
    decreases |normals|
  {
    if |normals| == 0 then b
    else
      var prefix := normals[..|normals| - 1];
      var last := normals[|normals| - 1];
      var r' := EvaluateCollision(b, prefix, minGroundDot);
      assert forall i :: 0 <= i < |prefix| ==> prefix[i] == normals[i];
      if Ground(last, minGroundDot) then r'.(onGround := true, contactNormal := last)
      else r'
  }

  /** The inputs a body sees between and during ticks. */
  datatype Input =
    | Steer(input: Planar, rotate: real, jump: int)
    | Tick
    | Touch(normals: seq<Vec3>)

  function Apply(b: Body, e: Input, maxSpeed: real, minGroundDot: real): Body
  {
    match e
    case Steer(input, rotate, jump) => Move(b, input, rotate, jump, maxSpeed)
    case Tick => FixedUpdate(b).body
    case Touch(normals) => EvaluateCollision(b, normals, minGroundDot)
  }

  function Run(b: Body, es: seq<Input>, maxSpeed: real, minGroundDot: real): Body
    decreases |es|
  {
    if |es| == 0 then b else Run(Apply(b, es[0], maxSpeed, minGroundDot), es[1..], maxSpeed, minGroundDot)
  }

  /** Some steering input in `es` asks for a jump. */
  predicate JumpAsked(es: seq<Input>)
  {
    exists i :: 0 <= i < |es| && es[i].Steer? && es[i].jump == 1
  }

  lemma JumpAskedTail(es: seq<Input>)
    requires |es| > 0
    ensures JumpAsked(es) <==> (es[0].Steer? && es[0].jump == 1) || JumpAsked(es[1..])
  {
    if JumpAsked(es) && !(es[0].Steer? && es[0].jump == 1) {
      var i :| 0 <= i < |es| && es[i].Steer? && es[i].jump == 1;
      assert es[1..][i - 1] == es[i];
    }
    if JumpAsked(es[1..]) {
      var i :| 0 <= i < |es[1..]| && es[1..][i].Steer? && es[1..][i].jump == 1;
      assert es[i + 1] == es[1..][i];
    }
  }

  /**
    While frozen, no input unfreezes the body and the jump latch only grows:
    a jump requested before or during the frozen period is still pending.
   */
  lemma {:induction false} FrozenKeepsJumpLatch(b: Body, es: seq<Input>, maxSpeed: real, minGroundDot: real)
    requires b.frozen
    ensures Run(b, es, maxSpeed, minGroundDot).frozen
    ensures Run(b, es, maxSpeed, minGroundDot).desiredJump <==> b.desiredJump || JumpAsked(es)
    decreases |es|
  {
    if |es| > 0 {
      JumpAskedTail(es);
      FrozenKeepsJumpLatch(Apply(b, es[0], maxSpeed, minGroundDot), es[1..], maxSpeed, minGroundDot);
    }
  }

  /** Without a tick in between, the jump latch is the OR of every request: a later jump == 0 never clears it. */
  lemma {:induction false} LatchHeldUntilTick(b: Body, es: seq<Input>, maxSpeed: real, minGroundDot: real)
    requires forall i :: 0 <= i < |es| ==> !es[i].Tick?
    ensures Run(b, es, maxSpeed, minGroundDot).desiredJump <==> b.desiredJump || JumpAsked(es)
    ensures Run(b, es, maxSpeed, minGroundDot).frozen == b.frozen
    decreases |es|
  {
    if |es| > 0 {
      JumpAskedTail(es);
      assert forall i :: 0 <= i < |es[1..]| ==> es[1..][i] == es[i + 1];
      LatchHeldUntilTick(Apply(b, es[0], maxSpeed, minGroundDot), es[1..], maxSpeed, minGroundDot);
    }
  }
}

=== FILE: snowball.dfy ===
/**
  The Snowball script's collision rule. A snowball that touches anything
  resolves once: it freezes a struck object tagged "Tagger" that has a
  Movement body when CanFreeze holds, paying the hit rewards; it then always
  reports a miss for its owner and is destroyed.
 */
module Snowball {
  import opened Common
  import Movement
  import opened EnvController

  /** What the snowball touched: a scene object known only by its tag, or an agent's body. */
  datatype Struck = Scenery(tag: string) | AgentBody(who: AgentRef)

  /**
    The engine-side effects of a collision: the call of
    DistributeSnowballMissRewards, which is not part of this model, and
    Destroy(gameObject).
   */
  datatype Effect = MissReport(owner: AgentRef) | Destroy

  datatype Impact = Impact(env: Env, hit: bool, effects: seq<Effect>)

  function StruckTag(env: Env, s: Struck): string
    requires s.AgentBody? ==> ValidRef(env, s.who)
  {
    match s
    case Scenery(tag) => tag
    case AgentBody(who) => Get(env, who).body.tag
  }

  function Occurrences(es: seq<Effect>, e: Effect): (n: nat)
    ensures n <= |es|
    decreases |es|
  {
    if |es| == 0 then 0 else (if es[0] == e then 1 else 0) + Occurrences(es[1..], e)
  }

  /** A hit: the struck tagger is frozen and the snowball-hit rewards are paid. */
  function HitTagger(env: Env, tagger: AgentRef, owner: AgentRef): (r: Env)
    requires ValidRef(env, tagger) && ValidRef(env, owner)
    ensures SameShape(env, r)
    ensures Get(r, tagger) == Get(env, tagger).(body := Movement.Freeze(Get(env, tagger).body),
                                                 reward := Get(r, tagger).reward)
    ensures tagger != owner ==>
      && Get(r, tagger).reward == Get(env, tagger).reward + env.cfg.w.t_snowball
      && Get(r, owner) == Get(env, owner).(reward := Get(env, owner).reward + env.cfg.w.r_snowball)
    ensures forall p :: ValidRef(env, p) && p != owner && p != tagger ==> Get(r, p) == Get(env, p)
    ensures r.taggerGroup == env.taggerGroup + env.cfg.w.tg_snowball
    ensures r.runnerGroup == env.runnerGroup + env.cfg.w.rg_snowball
    ensures SameScene(env, r)
  {
    var frozen := SetBody(env, tagger, Movement.Freeze(Get(env, tagger).body));
    var r := DistributeSnowballHitRewards(frozen, tagger, owner);
    assert Get(r, tagger) == Get(frozen, tagger).(reward := Get(r, tagger).reward);
    assert Get(r, owner) == Get(frozen, owner).(reward := Get(r, owner).reward);
    r
  }

  /**
    Snowball.OnCollisionEnter, fired by `owner`'s snowball. CanFreeze of the
    struck body is not part of this model and is the parameter `canFreeze`.
   */
  function OnCollisionEnter(env: Env, owner: AgentRef, struck: Struck, canFreeze: bool): (r: Impact)
    requires ValidRef(env, owner)
    requires struck.AgentBody? ==> ValidRef(env, struck.who)
    ensures SameShape(env, r.env)
    ensures r.hit <==> struck.AgentBody? && StruckTag(env, struck) == TaggerTag && canFreeze
    ensures !r.hit ==> r.env == env
    ensures r.hit ==> r.env == HitTagger(env, struck.who, owner)
    ensures Occurrences(r.effects, MissReport(owner)) == 1 && Occurrences(r.effects, Destroy) == 1
    ensures |r.effects| == 2 && r.effects[|r.effects| - 1] == Destroy
  {
    var effects := [MissReport(owner), Destroy];
    assert effects[1..] == [Destroy] && effects[1..][1..] == [];
    if struck.AgentBody? && StruckTag(env, struck) == TaggerTag && canFreeze then
      Impact(HitTagger(env, struck.who, owner), true, effects)
    else
      Impact(env, false, effects)
  }

  /** A snowball never changes the frozen flag of anything but a struck "Tagger"-tagged agent. */
  lemma OnlyStruckTaggerFreezes(env: Env, owner: AgentRef, struck: Struck, canFreeze: bool, p: AgentRef)
    requires ValidRef(env, owner) && ValidRef(env, p)
    requires struck.AgentBody? ==> ValidRef(env, struck.who)
    requires Get(OnCollisionEnter(env, owner, struck, canFreeze).env, p).body.frozen != Get(env, p).body.frozen
    ensures struck.AgentBody? && struck.who == p && Get(env, p).body.tag == TaggerTag && canFreeze
    ensures !Get(env, p).body.frozen
  {
  }

  /** A snowball keeps every agent's tag one the scripts write. */
  lemma KeepsTagsWritten(env: Env, owner: AgentRef, struck: Struck, canFreeze: bool)
    requires ValidRef(env, owner)
    requires struck.AgentBody? ==> ValidRef(env, struck.who)
    requires TagsWritten(env)
    ensures TagsWritten(OnCollisionEnter(env, owner, struck, canFreeze).env)
  {
    if OnCollisionEnter(env, owner, struck, canFreeze).hit {
      var tagger := struck.who;
      var b := Movement.Freeze(Get(env, tagger).body);
      TagsWrittenGet(env, tagger);
      Movement.FlipsKeepWrittenTags(Get(env, tagger).body);
      var frozen := SetBody(env, tagger, b);
      TagsWrittenUnderSetBody(env, tagger, b);
      TagsWrittenUnderRewards(frozen, DistributeSnowballHitRewards(frozen, tagger, owner));
      assert HitTagger(env, tagger, owner) == DistributeSnowballHitRewards(frozen, tagger, owner);
    }
  }
}

=== FILE: snowball_trigger.dfy ===
/**
  The SnowballTrigger script: a non-negative countdown that gates shooting.
  `lastShotTime` is the number of ticks still to wait; a shot is possible
  only at 0 and re-arms it to `cooldownTime`.
 */
module SnowballTrigger {

  datatype Trigger = Trigger(lastShotTime: int, cooldownTime: int)

  /** Start(): the countdown begins at 0, so the first shot is immediately possible. */
  function Start(cooldownTime: int): (t: Trigger)
    ensures t.lastShotTime == 0 && t.cooldownTime == cooldownTime
  {
    Trigger(0, cooldownTime)
  }

  function Max(a: int, b: int): int
  {
    if a >= b then a else b
  }

  /** FixedUpdate: the countdown drops by one and saturates at zero. */
  function FixedUpdate(t: Trigger): (r: Trigger)
    ensures r.lastShotTime >= 0
    ensures t.lastShotTime <= 0 ==> r.lastShotTime == 0
    ensures t.lastShotTime > 0 ==> r.lastShotTime == t.lastShotTime - 1
    ensures r.cooldownTime == t.cooldownTime
  {
    t.(lastShotTime := Max(0, t.lastShotTime - 1))
  }

  /** Reset: the countdown is cleared. */
  function Reset(t: Trigger): (r: Trigger)
    ensures r.lastShotTime == 0 && r.cooldownTime == t.cooldownTime
  {
    t.(lastShotTime := 0)
  }

  /** The outcome of ShootSnowball: the new trigger, and whether a snowball was spawned. */
  datatype Shot = Shot(trigger: Trigger, spawned: bool)

  /** ShootSnowball: spawns exactly when the countdown is 0 and the owner is not frozen, then re-arms. */
  function ShootSnowball(t: Trigger, ownerFrozen: bool): (s: Shot)
    ensures s.spawned <==> t.lastShotTime == 0 && !ownerFrozen
    ensures s.spawned ==> s.trigger == t.(lastShotTime := t.cooldownTime)
    ensures !s.spawned ==> s.trigger == t
  {
    if t.lastShotTime == 0 && !ownerFrozen then Shot(t.(lastShotTime := t.cooldownTime), true)
    else Shot(t, false)
  }

  /** `k` consecutive FixedUpdate calls. */
  function Ticks(t: Trigger, k: nat): Trigger
    decreases k
  {
    if k == 0 then t else Ticks(FixedUpdate(t), k - 1)
  }

  lemma {:induction false} TicksCountDown(t: Trigger, k: nat)
    requires t.lastShotTime >= 0
    ensures Ticks(t, k).lastShotTime == Max(0, t.lastShotTime - k)
    ensures Ticks(t, k).cooldownTime == t.cooldownTime
    decreases k
  {
    if k > 0 {
      assert Ticks(t, k) == Ticks(FixedUpdate(t), k - 1);
      TicksCountDown(FixedUpdate(t), k - 1);
    }
  }

  /** After a shot with cooldown C > 0, every attempt within fewer than C ticks is a no-op. */
  lemma ShotBlockedDuringCooldown(t: Trigger, k: nat, ownerFrozen: bool)
    requires ShootSnowball(t, false).spawned
    requires 0 <= k < t.cooldownTime
    ensures var waited := Ticks(ShootSnowball(t, false).trigger, k);
      ShootSnowball(waited, ownerFrozen) == Shot(waited, false)
  {
    TicksCountDown(ShootSnowball(t, false).trigger, k);
  }

  /** After a shot, once C ticks have passed an unfrozen owner can shoot again. */
  lemma ShotReadyAfterCooldown(t: Trigger, k: nat)
    requires ShootSnowball(t, false).spawned
    requires 0 <= t.cooldownTime <= k
    ensures ShootSnowball(Ticks(ShootSnowball(t, false).trigger, k), false).spawned
  {
    TicksCountDown(ShootSnowball(t, false).trigger, k);
  }

  /** The countdown stays within [0, cooldownTime]. */
  predicate InRange(t: Trigger)
  {
    t.cooldownTime >= 0 && 0 <= t.lastShotTime <= t.cooldownTime
  }

  lemma InRangePreserved(t: Trigger, ownerFrozen: bool)
    requires InRange(t)
    ensures InRange(FixedUpdate(t)) && InRange(Reset(t)) && InRange(ShootSnowball(t, ownerFrozen).trigger)
  {
  }
}

=== FILE: spawn.dfy ===
/**
  The environment's fixed pool of 15 spawn points and SampleSpawnPoints,
  which draws from it without replacement. The random index draws are
  inputs; each must lie in the range Random.Range(0, n) returns for the
  number n of points still available.
 */
module Spawn {
  import opened Common

  /** A spawn point's ground-plane coordinates in units of the ground's scale. */
  datatype Offset = Offset(x: real, z: real)

  const Offsets: seq<Offset> := [
    Offset(-4.0, 4.0), Offset(-4.0, 0.0), Offset(-4.0, -4.0),
    Offset(-2.0, -2.0), Offset(-2.0, 0.0), Offset(-2.0, 2.6),
    Offset(-0.6, -2.6), Offset(0.0, 0.0), Offset(0.0, 2.6),
    Offset(2.0, -4.0), Offset(2.0, 0.0), Offset(3.2, 3.8),
    Offset(4.0, -0.8), Offset(4.0, 4.0), Offset(4.0, -4.0)]

  const PoolSize: nat := 15

  /** The height every spawn point is placed at. */
  const SpawnHeight: real := 0.1

  function Point(scale: real, o: Offset): Vec3
  {
    Vec3(o.x * scale, SpawnHeight, o.z * scale)
  }

  function Pool(scale: real): (p: seq<Vec3>)
    ensures |p| == PoolSize
  {
    seq(PoolSize, i requires 0 <= i < PoolSize => Point(scale, Offsets[i]))
  }

  /** Position of `o` in the pool; the inverse of indexing into Offsets. */
  function IndexOf(o: Offset): int
  {
    if o == Offsets[0] then 0 else if o == Offsets[1] then 1 else if o == Offsets[2] then 2
    else if o == Offsets[3] then 3 else if o == Offsets[4] then 4 else if o == Offsets[5] then 5
    else if o == Offsets[6] then 6 else if o == Offsets[7] then 7 else if o == Offsets[8] then 8
    else if o == Offsets[9] then 9 else if o == Offsets[10] then 10 else if o == Offsets[11] then 11
    else if o == Offsets[12] then 12 else if o == Offsets[13] then 13 else if o == Offsets[14] then 14
    else -1
  }

  lemma IndexOfInverts(i: int)
    requires 0 <= i < PoolSize
    ensures IndexOf(Offsets[i]) == i
  {
    if i == 0 {} else if i == 1 {} else if i == 2 {} else if i == 3 {} else if i == 4 {}
    else if i == 5 {} else if i == 6 {} else if i == 7 {} else if i == 8 {} else if i == 9 {}
    else if i == 10 {} else if i == 11 {} else if i == 12 {} else if i == 13 {} else {}
  }

  lemma ScaleCancels(a: real, b: real, scale: real)
    requires scale != 0.0 && a * scale == b * scale
    ensures a == b
  {
    assert (a - b) * scale == 0.0;
  }

  /** With a non-zero ground scale the 15 spawn points are pairwise different positions. */
  lemma PoolInjective(scale: real, i: int, j: int)
    requires scale != 0.0 && 0 <= i < PoolSize && 0 <= j < PoolSize
    requires Pool(scale)[i] == Pool(scale)[j]
    ensures i == j
  {
    var p, q := Offsets[i], Offsets[j];
    ScaleCancels(p.x, q.x, scale);
    ScaleCancels(p.z, q.z, scale);
    assert p == q;
    IndexOfInverts(i);
    IndexOfInverts(j);
  }

  /**
    The draws fit the sampling of `count` points from `n`: the i-th draw is
    what Random.Range(0, n - i) can return, for every step that still has a
    point to take.
   */
  predicate DrawsFit(draws: seq<int>, n: nat, count: nat)
  {
    var steps := if count <= n then count else n;
    |draws| >= steps && forall i :: 0 <= i < steps ==> 0 <= draws[i] < n - i
  }

  function RemoveAt<T>(s: seq<T>, k: int): seq<T>
    requires 0 <= k < |s|
  {
    s[..k] + s[k + 1..]
  }

  lemma RemoveAtFacts<T>(s: seq<T>, k: int)
    requires 0 <= k < |s| && Distinct(s)
    ensures |RemoveAt(s, k)| == |s| - 1
    ensures Distinct(RemoveAt(s, k))
    ensures s[k] !in RemoveAt(s, k)
    ensures forall x :: x in RemoveAt(s, k) ==> x in s
  {
    var r := RemoveAt(s, k);
    assert forall i :: 0 <= i < |r| ==> r[i] == (if i < k then s[i] else s[i + 1]);
  }

  /**
    The loop of SampleSpawnPoints over pool positions: take the drawn
    position out of `avail`, repeat. Indexing an empty list fails.
   */
  function SampleIndices(avail: seq<int>, draws: seq<int>, count: nat): (r: Result<seq<int>>)
    requires Distinct(avail)
    requires DrawsFit(draws, |avail|, count)
    ensures r.Ok? <==> count <= |avail|
    ensures r.Ok? ==> |r.value| == count && Distinct(r.value)
    ensures r.Ok? ==> forall k :: 0 <= k < |r.value| ==> r.value[k] in avail
    decreases count
  {
    if count == 0 then Ok([])
    else if |avail| == 0 then Failure(SpawnIndexOutOfRange)
    else
      var k := draws[0];
      var rest := RemoveAt(avail, k);
      RemoveAtFacts(avail, k);
      assert DrawsFit(draws[1..], |rest|, count - 1) by {
        assert forall i :: 0 <= i < |draws[1..]| ==> draws[1..][i] == draws[i + 1];
      }
      match SampleIndices(rest, draws[1..], count - 1)
      case Failure(e) => Failure(e)
      case Ok(tail) =>
        var picked := [avail[k]] + tail;
        assert forall i :: 1 <= i < |picked| ==> picked[i] == tail[i - 1];
        Ok(picked)
  }

  function Iota(n: nat): (s: seq<int>)
    ensures |s| == n && forall i :: 0 <= i < n ==> s[i] == i
  {
    seq(n, i => i)
  }

  lemma IotaDistinct(n: nat)
    ensures Distinct(Iota(n))
    ensures forall x :: x in Iota(n) ==> 0 <= x < n
  {
  }

  /**
    SampleSpawnPoints(count): `count` points of the pool, no pool entry taken
    twice. Asking for more points than the pool holds fails.
   */
  function SampleSpawnPoints(scale: real, draws: seq<int>, count: nat): (r: Result<seq<Vec3>>)
    requires DrawsFit(draws, PoolSize, count)
    ensures r.Ok? <==> count <= PoolSize
    ensures r.Ok? ==> |r.value| == count
    ensures r.Ok? ==> forall k :: 0 <= k < count ==> r.value[k] in Pool(scale)
    ensures r.Ok? && scale != 0.0 ==> Distinct(r.value)
  {
    IotaDistinct(PoolSize);
    match SampleIndices(Iota(PoolSize), draws, count)
    case Failure(e) => Failure(e)
    case Ok(idx) =>
      assert forall k :: 0 <= k < |idx| ==> 0 <= idx[k] < PoolSize;
      var pool := Pool(scale);
      var pts := seq(|idx|, k requires 0 <= k < |idx| => pool[idx[k]]);
      assert scale != 0.0 ==> Distinct(pts) by {
        if scale != 0.0 {
          forall i, j | 0 <= i < j < |pts|
            ensures pts[i] != pts[j]
          {
            if pts[i] == pts[j] {
              PoolInjective(scale, idx[i], idx[j]);
            }
          }
        }
      }
      Ok(pts)
  }
}

=== FILE: tag_agent.dfy ===
/**
  The agent-local rules of the TagAgent script: episode begin, action
  routing by role, the observation flags, and the wall-contact penalty.
  The collision rules that hand out rewards through the environment are in
  modules AgentCollisions and Snowball.
 */
module TagAgent {
  import opened Common
  import Movement
  import SnowballTrigger

  /**
    One agent: its role, its Movement body (which carries the GameObject's
    tag), its shot trigger, the one-shot initial-freeze flag, the reward it
    has accumulated through AddReward, and its spawn position.
   */
  datatype Agent = Agent(
    role: Role,
    body: Movement.Body,
    trigger: SnowballTrigger.Trigger,
    initialFreeze: bool,
    reward: real,
    position: Vec3)

  /** An agent as the environment instantiates it from its role's prefab. */
  function Instantiate(role: Role, cooldownTime: int, position: Vec3, initialFreeze: bool): (a: Agent)
    ensures a.role == role && a.body.tag == PrefabTag(role) && !a.body.frozen
    ensures a.trigger.lastShotTime == 0 && a.reward == 0.0
    ensures a.position == position && a.initialFreeze == initialFreeze
  {
    Agent(role, Movement.Spawned(PrefabTag(role)), SnowballTrigger.Start(cooldownTime), initialFreeze, 0.0, position)
  }

  function IsFrozen(a: Agent): bool
  {
    a.body.frozen
  }

  function AddReward(a: Agent, amount: real): (r: Agent)
    ensures r.reward == a.reward + amount
    ensures r.(reward := a.reward) == a
  {
    a.(reward := a.reward + amount)
  }

  /**
    OnEpisodeBegin. Movement.Reset is not part of this model: its result is
    the parameter `afterReset`. Runners then clear their shot countdown, a
    pending initial freeze is applied, and the flag is consumed.
   */
  function OnEpisodeBegin(a: Agent, afterReset: Movement.Body): (r: Agent)
    ensures !r.initialFreeze
    ensures a.initialFreeze ==> r.body == Movement.Freeze(afterReset) && r.body.frozen
    ensures !a.initialFreeze ==> r.body == afterReset
    ensures a.role == Runner ==> r.trigger == SnowballTrigger.Reset(a.trigger) && r.trigger.lastShotTime == 0
    ensures a.role == Tagger ==> r.trigger == a.trigger
    ensures r.role == a.role && r.reward == a.reward && r.position == a.position
  {
    var reset := a.(body := afterReset);
    var armed := if a.role == Runner then reset.(trigger := SnowballTrigger.Reset(reset.trigger)) else reset;
    var frozen := if a.initialFreeze then armed.(body := Movement.Freeze(armed.body)) else armed;
    frozen.(initialFreeze := false)
  }

  /**
    The initial freeze is one-shot: the episode after the one that applied it
    starts from Movement.Reset's body unchanged.
   */
  lemma InitialFreezeOnce(a: Agent, first: Movement.Body, second: Movement.Body)
    ensures OnEpisodeBegin(OnEpisodeBegin(a, first), second).body == second
    ensures a.initialFreeze && !first.frozen ==> OnEpisodeBegin(a, first).body.tag == FrozenTag
  {
  }

  /** The agent's action buffers: three continuous axes and two discrete branches. */
  datatype Actions = Actions(horizontal: real, vertical: real, rotate: real, jump: int, special: int)

  /** A call of the five-argument Movement.Move, which is not part of this model; it is recorded, not executed. */
  datatype MoveRequest = MoveRequest(horizontal: real, vertical: real, rotate: real, jump: int, dash: int)

  datatype Routed = Routed(agent: Agent, move: MoveRequest, spawned: bool)

  /**
    OnActionReceived. Runners move with dash 0 and shoot when the special
    branch is 1; Taggers pass the special branch on as dash and never shoot.
   */
  function OnActionReceived(a: Agent, act: Actions): (r: Routed)
    ensures r.move.horizontal == act.horizontal && r.move.vertical == act.vertical
    ensures r.move.rotate == act.rotate && r.move.jump == act.jump
    ensures a.role == Runner ==> r.move.dash == 0
    ensures a.role == Tagger ==> r.move.dash == act.special && r.agent == a && !r.spawned
    ensures r.spawned <==> a.role == Runner && act.special == 1 && a.trigger.lastShotTime == 0 && !a.body.frozen
    ensures r.agent == a.(trigger := r.agent.trigger)
    ensures !r.spawned ==> r.agent == a
    ensures r.spawned ==> r.agent.trigger == a.trigger.(lastShotTime := a.trigger.cooldownTime)
  {
    var move := MoveRequest(act.horizontal, act.vertical, act.rotate, act.jump,
                            if a.role == Runner then 0 else act.special);
    if a.role == Runner && act.special == 1 then
      var shot := SnowballTrigger.ShootSnowball(a.trigger, a.body.frozen);
      Routed(a.(trigger := shot.trigger), move, shot.spawned)
    else
      Routed(a, move, false)
  }

  /** The discrete part of CollectObservations; velocity, position and yaw are not part of this model. */
  datatype Observation = Observation(frozen: bool, onGround: bool, jumpAvailable: bool, specialAvailable: bool)

  /** Movement's jumpTimer and dashTimer are not part of this model; their current values are parameters. */
  function CollectObservations(a: Agent, jumpTimer: int, dashTimer: int): (o: Observation)
    ensures o.frozen == a.body.frozen && o.onGround == a.body.onGround
    ensures o.jumpAvailable <==> a.body.onGround && jumpTimer == 0
    ensures a.role == Tagger ==> (o.specialAvailable <==> dashTimer == 0)
    ensures a.role == Runner ==> (o.specialAvailable <==> a.trigger.lastShotTime == 0)
  {
    Observation(a.body.frozen, a.body.onGround, a.body.onGround && jumpTimer == 0,
                if a.role == Tagger then dashTimer == 0 else a.trigger.lastShotTime == 0)
  }

  /** For an unfrozen Runner, "special available" says exactly whether pressing special fires a snowball. */
  lemma SpecialObservationPredictsShot(a: Agent, act: Actions, jumpTimer: int, dashTimer: int)
    requires a.role == Runner && !a.body.frozen && act.special == 1
    ensures CollectObservations(a, jumpTimer, dashTimer).specialAvailable <==> OnActionReceived(a, act).spawned
  {
  }

  /** The penalty OnCollisionStay adds for every callback while touching a wall. */
  const WallPenalty: real := -0.0001

  /** OnCollisionStay: touching an object tagged "Wall" costs a fixed small reward and changes nothing else. */
  function OnCollisionStay(a: Agent, otherTag: string): (r: Agent)
    ensures otherTag == WallTag ==> r == a.(reward := a.reward + WallPenalty)
    ensures otherTag != WallTag ==> r == a
    ensures r.reward <= a.reward
  {
    if otherTag == WallTag then AddReward(a, WallPenalty) else a
  }

  /** `n` stay callbacks against a wall cost exactly n times the penalty. */
  function StayOnWall(a: Agent, n: nat): Agent
    decreases n
  {
    if n == 0 then a else StayOnWall(OnCollisionStay(a, WallTag), n - 1)
  }

  lemma {:induction false} WallPenaltyAccumulates(a: Agent, n: nat)
    ensures StayOnWall(a, n).reward == a.reward + (n as real) * WallPenalty
    ensures StayOnWall(a, n) == a.(reward := StayOnWall(a, n).reward)
    decreases n
  {
    if n > 0 {
      WallPenaltyAccumulates(OnCollisionStay(a, WallTag), n - 1);
    }
  }
}
